=== FILE: README.md ===
# Euchre trick-play engine, modelled in Dafny

This project models the trick-play core of a Monte-Carlo Euchre simulation, where
the dealer is always forced to call trump. The core has these parts:

- **Deal.** The 24-card deck is shuffled, five cards go to each of the four seats,
  and a trump suit and a dealer seat are drawn. The trump suit fixes the
  *left-bower suit*: the other suit of the same colour.
- **Tokens.** Each card resolves to a *token* (`RankToken`) that depends on the
  trump suit, the left-bower suit and the trick's lead suit. The token is one of:
  - `None`, for a card that cannot win;
  - `Nine` to `Ace`, for a card of the led suit;
  - `NineTrump` to `AceTrump`, for trump;
  - `LeftBauerTrump` and `JackTrump`, for the two bowers.
- **Strength.** One ordinal table (`RankValues`) orders the tokens. Every
  "highest" and "lowest" decision compares by this table.
- **Legal cards.** A player must follow the lead if they can. The left bower
  counts as trump once a trick has a lead suit. When the left bower itself is
  led, however, the lead suit is its printed suit (see below).
- **The AI.** It picks one legal card using these heuristics:
  - lead strong cards, unless a higher trump may still be out;
  - overtake the opponents with the cheapest card that wins;
  - otherwise shed a card, preferring to empty a singleton side suit.
- **Trick end.** After four plays the strongest card wins. Its seat, computed from
  its index in the trick, leads the next trick.
- **Round and statistics.** Tricks are played until the hands are empty. Every
  play counts its token as played, and every trick counts its winner's token as
  won. The simulation repeats deal and round, then reports `won / played` per
  token.

Modules, in dependency order:

| module | file | what it holds |
|---|---|---|
| `Seqs` | seqs.dfy | `filter`, `findIndex`, `splice`, the hand-slicing removal, `Distinct` |
| `Cards` | cards.dfy | suits, ranks, tokens, the strength table, the full deck |
| `Resolution` | resolution.dfy | the left-bower suit and the card-to-token resolver |
| `Legality` | legality.dfy | the follow-suit filter |
| `Extremes` | extremes.dfy | the seedless `reduce` selections and `Math.max` |
| `Policy` | policy.dfy | the AI's decision tree |
| `PolicyProperties` | policy_properties.dfy | what the AI guarantees |
| `GameState` | state.dfy | the game record, seat arithmetic and counters |
| `Play` | play.dfy | one play, four plays and the end of a trick, with their invariant |
| `Round` | round.dfy | the deal, the round loop and the simulation loop |

Randomness is an input. The shuffled deck, the trump suit and the dealer seat are
passed in as a `DealInput`. `ValidDraw` requires 24 distinct cards and a dealer
in 1..4.

A `reduce` without a seed throws on an empty list. Wherever the engine does this,
the model returns `None`. `ChooseCardDefined` proves that this never happens when
the legal set comes from a non-empty hand.

The model follows these quirks of the code, including where they differ from the
usual rules of Euchre:

- **Ties.** Every `reduce` here keeps `prev` only on a strict win
  (`prev OP curr ? prev : curr`). So among equally strong cards the LAST one is
  selected, not the first. `Extremes.MaxIndex` and `Extremes.MinIndex` state this.
- **Leader's tokens.** The leader's hand is resolved while the lead suit is still
  unset. Every non-trump card therefore resolves to `None` (value 0) for the
  leader's choice. The card actually played is then resolved again, after its own
  suit has become the lead suit.
- **Higher-trump check.** It looks at the unseen cards that ARE in the player's
  own hand, not at those outside it. It compares plain rank values. So holding the
  left bower always counts as "a higher trump may be out". `ExampleBowerLead`
  shows this on the bower hand.
- **Left bower led.** The lead suit is set to the printed suit of the first card
  played, so a led left bower makes its printed suit (not trump) the lead suit.
  Trump cards then do not count as following, and a player holding the printed
  suit must play it. `Legality.ExampleLeftBowerLed` shows this.
- **Self-shortening.** Only cards with value below 5 are candidates, i.e. below
  King.
- **Score.** A trick does not change any score.

## Model

| member | source | states |
|---|---|---|
| Cards.RankValueBijective | gamestate.ts:5-20 | the strength table gives the 14 tokens the 14 distinct values 0..13, and `TokenOfValue` inverts it |
| Cards.AllTokensInValueOrder | main.ts:3-9 | the counter list built from the table's keys holds, at position v, the token of value v, and lists every token |
| Cards.TrumpBeatsNonTrump | gamestate.ts:5-20 | a token is trump exactly when its value is at least 7, so every trump beats every non-trump token |
| Cards.ExtremeTokens | gamestate.ts:5-20 | the right bower is the only token of value 13, the left bower the only one of 12, and `None` the only one of 0 |
| Cards.RankOrderWithinSuit | gamestate.ts:5-20 | plain and trump tokens both order Nine < Ten < Queen < King < Ace; the plain Jack lies between Ten and Queen |
| Cards.FullDeckIsUniverse | main.ts:35 | the deck built suit by suit holds every (rank, suit) card, each exactly once |
| Resolution.LeftBauerSuit | main.ts:40-48 | the left-bower suit differs from trump and has trump's colour |
| Resolution.LeftBauerSuitInvolution | main.ts:40-48 | the mapping is its own inverse, and it is the only other suit of trump's colour |
| Resolution.Resolve | main.ts:157-168 | a card gets `LeftBauerTrump` iff it is the left-bower Jack; a trump token iff it is trump or the left bower; a plain token iff it is non-trump of the lead suit; `None` otherwise; the rank is kept |
| Resolution.BowersResolve | main.ts:157-168 | the trump Jack is the right bower, the left-suit Jack the left bower, and no other card gets either token |
| Resolution.ResolveInjective | main.ts:157-168 | in one context, two different cards that can win never share a token or a value |
| Resolution.LeadCardRanked | main.ts:198-215 | the card that opens a trick is resolved against its own suit and is never `None` |
| Resolution.ResolveAll | main.ts:156-170 | the entries carry exactly the hand's cards in hand order, each with the token it resolves to in this context |
| Resolution.ExampleBowerHand | main.ts:157-168 | with trump Spades, Jack of Clubs, Jack of Spades and Nine of Spades resolve to values 12, 13 and 7 |
| Legality.Playable | main.ts:171-196 | the playable entries come from the list and are no more than it; they are the whole list when leading or unable to follow, and all follow the lead otherwise |
| Legality.LegalPlays | main.ts:156-196 | the legal set of a hand never has more entries than the hand |
| Legality.LegalPlaysSpec | main.ts:171-196 | the legal set is the whole hand when leading or unable to follow; otherwise it is the following cards in hand order, the same list a plain follow-the-lead filter gives; it is non-empty iff the hand is; every entry is correctly resolved and comes from the hand |
| Legality.FollowersInOrder | main.ts:181-196 | on correctly resolved entries the printed-suit pre-test of line 185 never rejects an entry that follows the lead, so the filter equals the plain follow-the-lead filter, order included |
| Legality.ExampleLeftBowerLed | main.ts:171-199 | after the Jack of Clubs is led under Spades trump, the lead suit is Clubs: the Jack resolves to the left bower, the Queen of Spades does not follow, and only the Nine of Clubs may be played |
| Legality.FollowsLeadOnCards | main.ts:172-194 | on cards: under a trump lead the trump cards and the left bower follow; otherwise the cards of the led suit except the left bower follow |
| Extremes.MaxIndex | main.ts:63-65 | the selected entry is at least as strong as every entry, and strictly stronger than every later entry (ties go to the last one) |
| Extremes.MinIndex | main.ts:107-109 | the selected entry is at most as strong as every entry, and strictly weaker than every later entry |
| Extremes.MaxValue | main.ts:113 | the value bounds every entry and is attained by one |
| Extremes.MaxIndexUnique | main.ts:231-233 | any index that is maximal and strictly beats every later entry is the selected one |
| Extremes.MinIndexUnique | main.ts:117-119 | likewise for the minimum |
| Extremes.FilterMinLast | main.ts:101-104 | reducing to the minimum over the filtered candidates selects, in the whole list, an entry passing the test that is at most as strong as every passing entry and strictly weaker than every later passing entry |
| Extremes.FilterMaxLast | main.ts:72-75 | reducing to the maximum over the filtered cards below 7 selects, in the whole list, a passing entry at least as strong as every passing entry and strictly stronger than every later one |
| Policy.TeamControls | main.ts:57-59 | before the fourth card, the team holds the trick exactly when the player leads, or the partner (two seats back) has played the strictly strongest card so far |
| Policy.SuitCountPositive | main.ts:83-97 | a suit's count is positive iff some playable entry falls in its bucket (trump plus the left bower for trump; printed suit minus the left bower otherwise) |
| Policy.SuitsToShortMembers | main.ts:83-100 | a suit is a shortening candidate iff it is not trump and exactly one playable entry falls in its bucket: some entry is in the bucket and no other entry is |
| Policy.SuitCountOne | main.ts:83-97 | a suit's count is exactly one iff there is an entry in its bucket and every other entry is outside it |
| Policy.HigherTrumpPossible | main.ts:67 | true exactly when some unseen card that is in the player's OWN hand is either trump of higher plain rank than the best card's plain rank, or the left bower, which always counts |
| Policy.ShortOrLowest | main.ts:98-110 | a card it returns is one of the playable entries |
| Policy.ChooseCard | main.ts:56-152 | the AI's card is one of the playable entries, and an empty playable list yields no card |
| PolicyProperties.ShortOrLowestDefined | main.ts:99-105 | once the trick has started, the self-shortening candidate list built from a legal set is never empty |
| PolicyProperties.LowestChoice | main.ts:107-110 | without self-shortening the weakest playable card is played, and it is the last of equally weak ones (every later entry is strictly stronger); there is a card exactly when the list is non-empty |
| PolicyProperties.ShortestChoice | main.ts:98-106 | with self-shortening (some trump held and some singleton side suit), the weakest card below value 5 of a singleton side suit is played, the last of equally weak such candidates; there is a card exactly when such a candidate exists; "singleton" means one entry in the suit's bucket, as `Policy.SuitCountOne` states |
| PolicyProperties.CandidatesAgree | main.ts:99-102 | the candidate test written with the list of suits to short selects exactly the cards below value 5 of a singleton side suit, in the same order |
| PolicyProperties.DefensiveFallback | main.ts:81-110 | when the team holds a started trick, or no playable card beats every card played, the AI makes the defensive choice (the same code repeats at main.ts:122-151) |
| PolicyProperties.ChooseCardDefined | main.ts:56-152 | for the legal set of a non-empty hand, the AI always returns a card of that hand |
| PolicyProperties.OvertakeWithCheapestWinner | main.ts:113-121 | when the opponents hold the trick and some playable card beats all played cards, the AI plays such a card, and the weakest of them |
| PolicyProperties.LeadChoice | main.ts:61-79 | leading with no higher trump in view, the AI plays its strongest card; with one in view, it plays the strongest card below value 7 if it has one, the last of equally strong ones (every later card below 7 is strictly weaker), and its strongest card if it holds only trump |
| PolicyProperties.ExampleTrumpCheckLead | main.ts:63-79 | leading Jack of Clubs, Jack of Spades and Ace of Hearts under Spades, the player's own left bower trips the higher-trump check, so the Ace of Hearts is led instead of the right bower |
| PolicyProperties.ExampleBowerLead | main.ts:63-79 | leading Jack of Clubs, Jack of Spades and Nine of Spades under Spades, the higher-trump check fires on the player's own left bower, and the right bower is still led |
| Seqs.FindIndex | main.ts:201 | the index is -1 exactly when the element is absent; otherwise it holds the element and no earlier position does |
| Seqs.SpliceOutRemovesOne | main.ts:218 | removing a present card from the unseen cards removes exactly one copy; a missing card would drop the last element |
| Seqs.WithoutRemovesOne | main.ts:201-202 | rebuilding the hand around the found index removes exactly one copy of a held card, the first one, and keeps the cards before and after it in order; a missing card would nearly double the hand |
| Seqs.WithoutKeepsOrder | main.ts:201-202 | on a hand without repeats, removing a held card leaves exactly the other cards, in their original order |
| Seqs.WithoutInOrder | main.ts:201-202 | the same, for any test that rejects exactly the removed card among the hand's entries |
| GameState.SeatAfter | main.ts:220 | advancing `k` seats from the leader gives a seat in 1..4 that is `k` places on (mod 4) |
| GameState.JsRem | main.ts:242 | JavaScript's `%` agrees with the mathematical remainder on non-negative operands and stays strictly between -n and n |
| GameState.SeatOfIndex | main.ts:242 | for a leader in 1..4 and a non-negative index, the formula gives the seat that many places after the leader |
| GameState.SeatOfIndexAgrees | main.ts:242 | the winner's seat formula gives the seat that played that trick position, the same one the turn rotation reaches |
| GameState.Bump | main.ts:216 | one counter goes up by one, all others stay the same, and the total goes up by one |
| Play.ChosenCard | main.ts:155-197 | the AI's card is the card of some entry of the player's legal set, resolved against the current lead suit |
| Play.ExampleChosenLead | main.ts:63-197 | in a dealt game where seat 1 leads from Jack of Clubs, Jack of Spades and Ace of Hearts with Spades trump and the whole deck unseen, the engine's choice is the Ace of Hearts |
| Play.ChosenFollowsSuit | main.ts:171-197 | the chosen card is in the player's hand, and once the trick has started it follows the lead whenever some card of the hand can |
| Play.ApplyPlay | main.ts:198-220 | the card goes on the trick with its token under the lead suit it fixes when first; only its token's played counter rises; won counters, other hands, trump, leader and dealer are kept; the turn moves one seat on |
| Play.PlayCard | main.ts:154-221 | a play succeeds exactly when the turn names a seat and the AI picks a card; that card is appended to the trick, the played total rises by one, the won counters are kept and the turn moves one seat on |
| Play.PlayTimes | main.ts:226-228 | `k` plays append `k` cards to the trick and keep the earlier ones, add `k` to the played total, and keep the won counters, trump, leader and dealer |
| Play.CloseTrick | main.ts:231-246 | closing succeeds exactly when the trick has a card; the won counter of the strongest card's token (the last of equal ones) rises by one and no other; lead and turn go to one seat in 1..4; the trick is cleared; hands, unseen cards and played counters are kept |
| Play.PlayTrick | main.ts:223-247 | a whole trick adds four to the played total and one to the won total, ends with an empty trick, and gives the lead and the turn to the same seat |
| Play.PlayCardStep | main.ts:154-220 | a play under the trick invariant succeeds and keeps the invariant. The card is the AI's choice and comes from the player's hand. It leaves that hand and the unseen cards exactly once, the rest of the hand keeps its order, and no other hand changes. It goes on the trick with its token and fixes the lead suit if first. The played counter of its token rises by one and no other, and the turn moves one seat on |
| Play.ApplyPlayKeepsOrder | main.ts:201-219 | after a play the player's hand is the old hand with the played card filtered out, the other cards in their order |
| Play.ApplyPlayHands | main.ts:201-219 | playing a held card keeps the hands disjoint and unseen, and the card is then in no hand |
| Play.ApplyPlayTrick | main.ts:198-217 | the trick is extended by the card and its token for the current lead suit, and its cards stay distinct and resolved |
| Play.ApplyPlayCounts | main.ts:216 | counting the played token keeps every won count within its played count, with the cards on the table outstanding |
| Play.PlayTimesStep | main.ts:226-228 | the four plays of a trick all succeed and keep the trick invariant; played counts rise by the number of plays and won counts do not change |
| Play.TrickWinnerStrict | main.ts:231-242 | the winner is strictly stronger than every other card of the trick; `findIndex` finds its own position; the seat formula gives the seat that played it |
| Play.CloseTrickStep | main.ts:231-246 | closing a full trick picks a winner strictly stronger than every other card of it, counts that token once as won and no other, hands the lead and the turn to the seat that played it, clears the trick, and leaves every hand one card shorter than at the start |
| Play.PlayTrickStep | main.ts:223-247 | a trick from a between-tricks state succeeds: four cards go down, the strictly strongest one's token is counted once as won, the seat that played it leads and plays next, every hand shrinks by one, and four cards are counted as played |
| Round.ZeroCounts | main.ts:3-9 | every played and won counter starts at zero, one pair per token |
| Round.InitialGame | main.ts:11-32 | the starting state has every card unseen, counters that sum to zero and are consistent |
| Round.Deal | main.ts:34-54 | the hands are consecutive five-card slices of the deck; trump and left-bower suit, dealer, and lead seat (the one after the dealer) are set; the trick is empty |
| Round.DealStartsRound | main.ts:34-54 | dealing a shuffled 24-card deck gives four disjoint five-card hands of unseen cards, so the round invariant holds |
| Round.PlayRound | main.ts:249-254 | the round ends with empty hands, every card unseen again and an empty trick; it adds four played cards and one won trick per card held at the start, and won never exceeds played |
| Round.SimulateDeal | main.ts:258-261 | one deal and its round add 20 played cards and 5 won tricks, and keep the unseen cards full and the counters consistent |
| Round.Simulate | main.ts:256-261 | over any number of deals the played total rises by 20 per deal and the won total by 5, with counters consistent throughout |
| Round.SimulateFromStart | main.ts:256-268 | from the initial state every token's won count is at most its played count, so every ratio with a non-zero played count lies in [0, 1] |

## Left out

- Randomness (`Math.random`, the shuffle's sort comparator): the deck, trump suit and dealer seat are inputs. The deck must be 24 distinct cards, so it is a permutation of the full deck.
- The final `console.log` report and its division `wonCount / playedCount`: this is output and floating point. `Round.SimulateFromStart` proves the numerator never exceeds the denominator. A token never played has both counts 0, and the source then reports `0 / 0`, which is `NaN`; the model says nothing about that value.
- The 10,000,000-deal loop count: `Round.Simulate` takes any list of draws.
- `EstimatedRankValues` (gamestate.ts): it is real-valued, and this core never reads it.
- Bidding, lone hands, suit caller, scoring, phases, `upCard` and `deck` fields of the game record: this code never uses them.
- The `player` field of trick entries: the code never sets or reads it.
- Round.PlayRound: requires the between-tricks invariant. The source's `while` loop terminates only because each trick shrinks every hand. A state that breaks the invariant (mismatched hand sizes) is not modelled.
- Round.Deal: requires a deck of exactly 24 cards. The source never deals any other deck, so `slice` on a shorter deck is not modelled.
- Play.PlayCard: returns `None` when the turn names no seat or the AI's `reduce` meets an empty list. These stand for the TypeErrors the source would throw. Both are proved unreachable under the trick invariant.
- Legality.Playable: on arbitrary entries it states membership only; the order of the filtered list is stated for correctly resolved entries, the only ones the engine builds, by `Legality.LegalPlaysSpec`.
- Legality.LegalPlays: its own contract bounds only the length; which entries it holds, and in what order, is stated by `Legality.LegalPlaysSpec`.
- Policy.ShortOrLowest: its own contract says only that the card is playable; which card it is, is stated by `PolicyProperties.LowestChoice` and `PolicyProperties.ShortestChoice`.
- The `(turn ?? 1)` default: the turn is always a seat when a card is played, so the null case is not modelled.

=== FILE: cards.dfy ===
/** The card universe of the Euchre simulation and the ordinal strength table
    that every highest/lowest decision of the engine compares with. */
module Cards {
  import opened Seqs


  datatype Option<T> = None | Some(value: T)

  datatype Suit = Spades | Hearts | Clubs | Diamonds

  datatype Rank = Nine | Ten | Jack | Queen | King | Ace

  datatype Card = Card(rank: Rank, suit: Suit)

  /** A card's identity once trump and lead suit are known.
      `Unranked` is the table's "None" entry (an off-suit card that cannot win),
      `Trump(Jack)` is the right bower ("JackTrump"). */
  datatype Token = Unranked | Plain(rank: Rank) | Trump(rank: Rank) | LeftBauer

  /** The suits and ranks in declaration order. */
  const AllSuits: seq<Suit> := [Spades, Hearts, Clubs, Diamonds]
  const AllRanks: seq<Rank> := [Nine, Ten, Jack, Queen, King, Ace]

  /** The fourteen tokens in the key order of the strength table. */
  const AllTokens: seq<Token> := [
    Unranked, Plain(Nine), Plain(Ten), Plain(Jack), Plain(Queen), Plain(King), Plain(Ace),
    Trump(Nine), Trump(Ten), Trump(Queen), Trump(King), Trump(Ace), LeftBauer, Trump(Jack)]

  /** Number of tokens, and so of statistics counters. */
  const TokenCount: nat := 14

  function SuitIndex(s: Suit): (i: nat)
    ensures i < |AllSuits| && AllSuits[i] == s
  {
    match s
    case Spades => 0
    case Hearts => 1
    case Clubs => 2
    case Diamonds => 3
  }

  function RankIndex(r: Rank): (i: nat)
    ensures i < |AllRanks| && AllRanks[i] == r
  {
    match r
    case Nine => 0
    case Ten => 1
    case Jack => 2
    case Queen => 3
    case King => 4
    case Ace => 5
  }

  /** Value of a plain (lead-suit) rank: the table entry keyed by the bare rank name. */
  function PlainValue(r: Rank): nat
  {
    match r
    case Nine => 1
    case Ten => 2
    case Jack => 3
    case Queen => 4
    case King => 5
    case Ace => 6
  }

  /** The ordinal strength table. */
  function RankValue(t: Token): nat
  {
    match t
    case Unranked => 0
    case Plain(r) => PlainValue(r)
    case Trump(r) =>
      (match r
       case Nine => 7
       case Ten => 8
       case Queen => 9
       case King => 10
       case Ace => 11
       case Jack => 13)
    case LeftBauer => 12
  }

  /** The token with a given table value: the inverse of the strength table. */
  function TokenOfValue(v: nat): (t: Token)
    requires v < TokenCount
    ensures RankValue(t) == v
  {
    AllTokens[v]
  }

  predicate IsTrumpToken(t: Token)
  {
    t.Trump? || t.LeftBauer?
  }

  /** The table is a bijection between the fourteen tokens and 0..13. */
  lemma RankValueBijective(t: Token, u: Token)
    ensures RankValue(t) < TokenCount
    ensures TokenOfValue(RankValue(t)) == t
    ensures RankValue(t) == RankValue(u) ==> t == u
  {
  }

  /** The counter list is laid out in table order: position i holds the token of value i. */
  lemma AllTokensInValueOrder()
    ensures |AllTokens| == TokenCount
    ensures forall i :: 0 <= i < |AllTokens| ==> RankValue(AllTokens[i]) == i
    ensures forall t: Token :: t in AllTokens
  {
    forall t: Token
      ensures t in AllTokens
    {
      assert AllTokens[RankValue(t)] == t;
    }
  }

  /** Every trump token (values 7..13) beats every plain token and `Unranked` (0..6). */
  lemma TrumpBeatsNonTrump(t: Token, u: Token)
    ensures IsTrumpToken(t) <==> RankValue(t) >= 7
    ensures IsTrumpToken(t) && !IsTrumpToken(u) ==> RankValue(t) > RankValue(u)
  {
  }

  /** The right bower is the unique maximum, the left bower the unique second,
      `Unranked` the unique minimum. */
  lemma ExtremeTokens(t: Token)
    ensures RankValue(t) == 13 <==> t == Trump(Jack)
    ensures RankValue(t) == 12 <==> t == LeftBauer
    ensures RankValue(t) == 0 <==> t == Unranked
    ensures RankValue(t) <= 13
  {
  }

  /** Plain and trump tokens both keep Nine < Ten < Queen < King < Ace; the plain
      Jack sits between Ten and Queen while the trump Jack is above everything. */
  lemma RankOrderWithinSuit(r: Rank, q: Rank)
    requires r != Jack && q != Jack
    ensures RankIndex(r) < RankIndex(q) <==> RankValue(Plain(r)) < RankValue(Plain(q))
    ensures RankIndex(r) < RankIndex(q) <==> RankValue(Trump(r)) < RankValue(Trump(q))
    ensures RankValue(Plain(Ten)) < RankValue(Plain(Jack)) < RankValue(Plain(Queen))
  {
  }

  /** The full deck, built suit by suit and within each suit rank by rank. */
  function FullDeck(): (d: seq<Card>)
    ensures |d| == |AllSuits| * |AllRanks| == 24
    ensures forall i :: 0 <= i < |d| ==> d[i] == Card(AllRanks[i % 6], AllSuits[i / 6])
  {
    seq(24, i requires 0 <= i < 24 => Card(AllRanks[i % 6], AllSuits[i / 6]))
  }

  /** The deck holds every one of the 24 (suit, rank) pairs exactly once. */
  lemma FullDeckIsUniverse()
    ensures Distinct(FullDeck())
    ensures forall c: Card :: c in FullDeck()
  {
    var d := FullDeck();
    forall i | 0 <= i < |d|
      ensures SuitIndex(d[i].suit) * 6 + RankIndex(d[i].rank) == i
    {
      assert RankIndex(d[i].rank) == i % 6;
      assert SuitIndex(d[i].suit) == i / 6;
    }
    forall c: Card
      ensures c in d
    {
      var i := SuitIndex(c.suit) * 6 + RankIndex(c.rank);
      assert i / 6 == SuitIndex(c.suit) && i % 6 == RankIndex(c.rank);
      assert d[i] == c;
    }
    DistinctFromPairs(d);
  }
}

=== FILE: extremes.dfy ===
/** The engine's `reduce` selections. A seedless `reduce` with
    `prev OP curr ? prev : curr` keeps `prev` only on a strict win, so among
    equally strong entries the LAST one is selected. */
module Extremes {
  import opened Seqs
  import opened Resolution

  /** `xs.reduce((prev, curr) => Value(prev) > Value(curr) ? prev : curr)`, as an index:
      the last entry of maximal strength. */
  function MaxIndex(xs: seq<Valued>): (i: nat)
    requires |xs| > 0
    ensures i < |xs|
    ensures forall j :: 0 <= j < |xs| ==> Value(xs[j]) <= Value(xs[i])
    ensures forall j :: i < j < |xs| ==> Value(xs[j]) < Value(xs[i])
  {
    if |xs| == 1 then 0
    else
      var p := MaxIndex(xs[..|xs| - 1]);
      if Value(xs[p]) > Value(xs[|xs| - 1]) then p else |xs| - 1
  }

  /** `xs.reduce((prev, curr) => Value(prev) < Value(curr) ? prev : curr)`, as an index:
      the last entry of minimal strength. */
  function MinIndex(xs: seq<Valued>): (i: nat)
    requires |xs| > 0
    ensures i < |xs|
    ensures forall j :: 0 <= j < |xs| ==> Value(xs[i]) <= Value(xs[j])
    ensures forall j :: i < j < |xs| ==> Value(xs[i]) < Value(xs[j])
  {
    if |xs| == 1 then 0
    else
      var p := MinIndex(xs[..|xs| - 1]);
      if Value(xs[p]) < Value(xs[|xs| - 1]) then p else |xs| - 1
  }

  /** `Math.max(...xs.map(Value))` on a non-empty list. */
  function MaxValue(xs: seq<Valued>): (m: nat)
    requires |xs| > 0
    ensures forall j :: 0 <= j < |xs| ==> Value(xs[j]) <= m
    ensures exists j :: 0 <= j < |xs| && Value(xs[j]) == m
  {
    if |xs| == 1 then Value(xs[0])
    else
      var m := MaxValue(xs[1..]);
      assert forall j :: 1 <= j < |xs| ==> xs[j] == xs[1..][j - 1];
      if Value(xs[0]) > m then Value(xs[0]) else m
  }

  /** The two characterising properties pin the selected index down: any index that
      is maximal and beaten by everything after it is `MaxIndex`. */
  lemma MaxIndexUnique(xs: seq<Valued>, k: nat)
    requires k < |xs|
    requires forall j :: 0 <= j < |xs| ==> Value(xs[j]) <= Value(xs[k])
    requires forall j :: k < j < |xs| ==> Value(xs[j]) < Value(xs[k])
    ensures MaxIndex(xs) == k
  {
  }

  /** Likewise for `MinIndex`. */
  lemma MinIndexUnique(xs: seq<Valued>, k: nat)
    requires k < |xs|
    requires forall j :: 0 <= j < |xs| ==> Value(xs[k]) <= Value(xs[j])
    requires forall j :: k < j < |xs| ==> Value(xs[k]) < Value(xs[j])
    ensures MinIndex(xs) == k
  {
  }

  /** Selecting from the entries that pass a test picks, in the whole list, the
      last weakest entry among those that pass it. */
  lemma FilterMinLast(xs: seq<Valued>, p: Valued -> bool)
    requires |Filter(xs, p)| > 0
    ensures var f := Filter(xs, p);
            exists i :: 0 <= i < |xs| && xs[i] == f[MinIndex(f)] && p(xs[i])
              && (forall j :: 0 <= j < |xs| && p(xs[j]) ==> Value(xs[i]) <= Value(xs[j]))
              && (forall j :: i < j < |xs| && p(xs[j]) ==> Value(xs[i]) < Value(xs[j]))
  {
    var f := Filter(xs, p);
    var k := MinIndex(f);
    FilterOrder(xs, p, k);
    hide Filter, MinIndex;
    var i :| 0 <= i < |xs| && xs[i] == f[k]
             && forall j :: i < j < |xs| && p(xs[j]) ==> xs[j] in f[k + 1..];
    forall j | 0 <= j < |xs| && p(xs[j])
      ensures Value(xs[i]) <= Value(xs[j])
    {
      assert xs[j] in f;
    }
    forall j | i < j < |xs| && p(xs[j])
      ensures Value(xs[i]) < Value(xs[j])
    {
      InSuffix(f, k, xs[j]);
    }
  }

  /** Likewise the strongest: the last strongest entry among those that pass. */
  lemma FilterMaxLast(xs: seq<Valued>, p: Valued -> bool)
    requires |Filter(xs, p)| > 0
    ensures var f := Filter(xs, p);
            exists i :: 0 <= i < |xs| && xs[i] == f[MaxIndex(f)]
              && (forall j :: 0 <= j < |xs| && p(xs[j]) ==> Value(xs[j]) <= Value(xs[i]))
              && (forall j :: i < j < |xs| && p(xs[j]) ==> Value(xs[j]) < Value(xs[i]))
  {
    var f := Filter(xs, p);
    var k := MaxIndex(f);
    FilterOrder(xs, p, k);
    hide Filter, MaxIndex;
    var i :| 0 <= i < |xs| && xs[i] == f[k]
             && forall j :: i < j < |xs| && p(xs[j]) ==> xs[j] in f[k + 1..];
    forall j | 0 <= j < |xs| && p(xs[j])
      ensures Value(xs[j]) <= Value(xs[i])
    {
      assert xs[j] in f;
    }
    forall j | i < j < |xs| && p(xs[j])
      ensures Value(xs[j]) < Value(xs[i])
    {
      InSuffix(f, k, xs[j]);
    }
  }
}

=== FILE: legality.dfy ===
/** The follow-suit filter that turns a resolved hand into the list of cards the
    player may legally play. Under a lead suit the left bower counts as trump; when
    the left bower is itself led, the lead suit is its printed suit. */
module Legality {
  import opened Cards
  import opened Seqs
  import opened Resolution

  /** An entry follows the lead: a trump card (left bower included) when trump was
      led, otherwise a card of the led suit that is not the left bower. With no
      lead suit nothing follows. */
  predicate FollowsLead(x: Valued, lead: Option<Suit>, trump: Suit)
  {
    if lead == Some(trump) then x.card.suit == trump || x.value == LeftBauer
    else lead == Some(x.card.suit) && x.value != LeftBauer
  }

  /** The printed-suit pre-test the filter applies before `FollowsLead`. */
  predicate MatchesLeadSuit(x: Valued, lead: Option<Suit>, trump: Suit, left: Suit)
  {
    lead == Some(x.card.suit) || (lead == Some(trump) && x.card.suit == left && x.card.rank == Jack)
  }

  predicate CanFollow(cards: seq<Valued>, lead: Option<Suit>, trump: Suit)
  {
    exists i :: 0 <= i < |cards| && FollowsLead(cards[i], lead, trump)
  }

  /** The entries kept by the follow-suit filter once the trick has started. */
  predicate Kept(x: Valued, lead: Option<Suit>, trump: Suit, left: Suit)
  {
    MatchesLeadSuit(x, lead, trump, left) && FollowsLead(x, lead, trump)
  }

  /** The playable entries: all of them when nothing follows the lead, otherwise
      those passing the filter. The filter's callback accepts everything while the
      trick is still empty, so a leader keeps the whole hand. */
  function Playable(cards: seq<Valued>, trickSize: nat, lead: Option<Suit>, trump: Suit, left: Suit): (r: seq<Valued>)
    ensures |r| <= |cards|
    ensures forall x :: x in r ==> x in cards
    ensures trickSize == 0 || !CanFollow(cards, lead, trump) ==> r == cards
    ensures trickSize > 0 && CanFollow(cards, lead, trump) ==>
              forall x :: x in r ==> FollowsLead(x, lead, trump)
  {
    if trickSize == 0 || !CanFollow(cards, lead, trump) then cards
    else Filter(cards, x => Kept(x, lead, trump, left))
  }

  /** The legal plays of a hand, resolved against the trick's current lead suit:
      never more entries than the hand holds (`LegalPlaysSpec` says which). */
  function LegalPlays(hand: seq<Card>, trickSize: nat, lead: Option<Suit>, trump: Suit, left: Suit): (r: seq<Valued>)
    ensures |r| <= |hand|
  {
    Playable(ResolveAll(hand, trump, left, lead), trickSize, lead, trump, left)
  }

  /** The legal set is the whole hand when leading or unable to follow, and
      otherwise the following cards in hand order; it is never empty for a
      non-empty hand. */
  lemma LegalPlaysSpec(hand: seq<Card>, trickSize: nat, lead: Option<Suit>, trump: Suit, left: Suit)
    ensures var cards := ResolveAll(hand, trump, left, lead);
            var r := LegalPlays(hand, trickSize, lead, trump, left);
            && (trickSize == 0 || !CanFollow(cards, lead, trump) ==> r == cards)
            && (trickSize > 0 && CanFollow(cards, lead, trump) ==>
                  r == Filter(cards, x => FollowsLead(x, lead, trump)))
            && (trickSize > 0 && CanFollow(cards, lead, trump) ==>
                  forall x :: x in r <==> x in cards && FollowsLead(x, lead, trump))
            && (|r| > 0 <==> |hand| > 0)
            && Resolved(r, trump, left, lead)
            && forall i :: 0 <= i < |r| ==> r[i].card in hand
  {
    var cards := ResolveAll(hand, trump, left, lead);
    var r := LegalPlays(hand, trickSize, lead, trump, left);
    if trickSize > 0 && CanFollow(cards, lead, trump) {
      var i :| 0 <= i < |cards| && FollowsLead(cards[i], lead, trump);
      assert cards[i] in r;
      FollowersInOrder(cards, lead, trump, left);
    }
    forall i | 0 <= i < |r|
      ensures r[i].value == Resolve(r[i].card, trump, left, lead) && r[i].card in hand
    {
      assert r[i] in cards;
      var j :| 0 <= j < |cards| && cards[j] == r[i];
      assert hand[j] == r[i].card;
    }
  }

  /** On correctly resolved entries the printed-suit pre-test never rejects an
      entry that follows the lead, so the filter keeps exactly the following
      entries, in their order. */
  lemma FollowersInOrder(cards: seq<Valued>, lead: Option<Suit>, trump: Suit, left: Suit)
    requires Resolved(cards, trump, left, lead)
    ensures Filter(cards, x => Kept(x, lead, trump, left)) == Filter(cards, x => FollowsLead(x, lead, trump))
  {
    forall i | 0 <= i < |cards| && FollowsLead(cards[i], lead, trump)
      ensures MatchesLeadSuit(cards[i], lead, trump, left)
    {
      assert cards[i].value == Resolve(cards[i].card, trump, left, lead);
    }
    FilterAgree(cards, x => Kept(x, lead, trump, left), x => FollowsLead(x, lead, trump));
  }

  /** Spelled out on cards: a card follows the lead when it is trump (left bower
      included) under a trump lead, or of the led suit and not the left bower. */
  lemma FollowsLeadOnCards(c: Card, lead: Option<Suit>, trump: Suit, left: Suit)
    requires left != trump
    ensures FollowsLead(Valued(c, Resolve(c, trump, left, lead)), lead, trump) <==>
            if lead == Some(trump) then IsTrumpCard(c, trump, left)
            else lead == Some(c.suit) && !IsLeftBower(c, left)
  {
  }

  /** A led left bower makes its printed suit the lead suit: with Spades trump and
      J♣ led, Q♠ (trump) does not follow, and a player holding 9♣ must play it. */
  lemma ExampleLeftBowerLed()
    ensures Resolve(Card(Jack, Clubs), Spades, Clubs, Some(Clubs)) == LeftBauer
    ensures LegalPlays([Card(Queen, Spades), Card(Nine, Clubs)], 1, Some(Clubs), Spades, Clubs)
            == [Valued(Card(Nine, Clubs), Plain(Nine))]
  {
    var hand := [Card(Queen, Spades), Card(Nine, Clubs)];
    var cards := ResolveAll(hand, Spades, Clubs, Some(Clubs));
    assert cards == [Valued(Card(Queen, Spades), Trump(Queen)), Valued(Card(Nine, Clubs), Plain(Nine))];
    assert FollowsLead(cards[1], Some(Clubs), Spades);
    LegalPlaysSpec(hand, 1, Some(Clubs), Spades, Clubs);
    assert Filter(cards, x => FollowsLead(x, Some(Clubs), Spades)) == [cards[1]];
  }
}

=== FILE: play.dfy ===
/** One play and one trick: legal cards, the AI's choice, and the bookkeeping of
    hand, unseen cards, trick, lead suit, turn and counters. */
module Play {
  import opened Cards
  import opened Seqs
  import opened Resolution
  import opened Extremes
  import opened Legality
  import opened Policy
  import opened PolicyProperties
  import opened GameState

  /** The card the AI picks for the player whose turn it is, from the legal cards
      of that player's hand resolved against the current lead suit. */
  function ChosenCard(g: Game): (r: Option<Card>)
    requires Shaped(g) && 1 <= g.turn <= SeatCount
    ensures r.Some? ==>
              exists e :: e in LegalPlays(g.hands[g.turn - 1], |g.trick.cards|, g.trick.leadSuit, g.trump, g.left)
                          && e.card == r.value
  {
    var hand := g.hands[g.turn - 1];
    var playable := LegalPlays(hand, |g.trick.cards|, g.trick.leadSuit, g.trump, g.left);
    var r := ChooseCard(playable, g.trick.cards, g.trump, g.left, hand, g.unknown);
    assert r.Some? ==> exists i :: 0 <= i < |playable| && playable[i].card == r.value;
    r
  }

  /** The chosen card comes from the player's hand, and once the trick has started
      it follows the lead whenever some card of the hand does. */
  lemma ChosenFollowsSuit(g: Game)
    requires Shaped(g) && 1 <= g.turn <= SeatCount
    ensures var hand := g.hands[g.turn - 1];
            var lead := g.trick.leadSuit;
            var r := ChosenCard(g);
            r.Some? ==>
              && r.value in hand
              && (|g.trick.cards| > 0 && CanFollow(ResolveAll(hand, g.trump, g.left, lead), lead, g.trump) ==>
                    FollowsLead(Valued(r.value, Resolve(r.value, g.trump, g.left, lead)), lead, g.trump))
  {
    var hand := g.hands[g.turn - 1];
    var lead := g.trick.leadSuit;
    var playable := LegalPlays(hand, |g.trick.cards|, lead, g.trump, g.left);
    LegalPlaysSpec(hand, |g.trick.cards|, lead, g.trump, g.left);
    var r := ChosenCard(g);
    if r.Some? {
      var e :| e in playable && e.card == r.value;
      var i :| 0 <= i < |playable| && playable[i] == e;
      assert e.value == Resolve(e.card, g.trump, g.left, lead);
    }
  }

  /** The higher-trump check seen through a dealt game: seat 1 leads from J♣, J♠
      and A♥ with Spades trump and the whole deck still unseen. Its own left bower
      counts as a higher trump possibly out, so it leads A♥ rather than the right
      bower. */
  lemma ExampleChosenLead()
    ensures var hand := [Card(Jack, Clubs), Card(Jack, Spades), Card(Ace, Hearts)];
            var zero := seq(TokenCount, _ => 0);
            var g := Game([hand, [], [], []], Spades, Clubs, 4, 1, 1, Trick([], None), FullDeck(), Stats(zero, zero));
            ChosenCard(g) == Some(Card(Ace, Hearts))
  {
    var hand := [Card(Jack, Clubs), Card(Jack, Spades), Card(Ace, Hearts)];
    var zero := seq(TokenCount, _ => 0);
    var g := Game([hand, [], [], []], Spades, Clubs, 4, 1, 1, Trick([], None), FullDeck(), Stats(zero, zero));
    ExampleTrumpCheckLead();
    assert g.hands[g.turn - 1] == hand;
    hide ChooseCard, LegalPlays;
  }

  /** The bookkeeping of playing `c`: the lead suit is fixed first (if the trick is
      empty), then the token is resolved, counted and put on the trick; the card
      leaves the hand and the unseen cards, and the turn moves one seat on. */
  function ApplyPlay(g: Game, c: Card): (r: Game)
    requires Shaped(g) && 1 <= g.turn <= SeatCount
    ensures Shaped(r)
    ensures r.trick.cards == g.trick.cards + [Valued(c, Resolve(c, g.trump, g.left, r.trick.leadSuit))]
    ensures |g.trick.cards| == 0 ==> r.trick.leadSuit == Some(c.suit)
    ensures |g.trick.cards| > 0 ==> r.trick.leadSuit == g.trick.leadSuit
    ensures forall v :: 0 <= v < TokenCount ==>
              r.stats.played[v] == g.stats.played[v] + (if v == Value(r.trick.cards[|g.trick.cards|]) then 1 else 0)
    ensures Sum(r.stats.played) == Sum(g.stats.played) + 1 && r.stats.won == g.stats.won
    ensures r.turn == SeatAfter(g.turn, 1)
    ensures forall i :: 0 <= i < SeatCount && i != g.turn - 1 ==> r.hands[i] == g.hands[i]
    ensures r.trump == g.trump && r.left == g.left && r.leadPlayer == g.leadPlayer && r.dealer == g.dealer
  {
    var seat := g.turn;
    var lead := if |g.trick.cards| == 0 then Some(c.suit) else g.trick.leadSuit;
    var t := Resolve(c, g.trump, g.left, lead);
    g.(hands := g.hands[seat - 1 := Without(g.hands[seat - 1], c)],
       stats := g.stats.(played := Bump(g.stats.played, t)),
       trick := Trick(g.trick.cards + [Valued(c, t)], lead),
       unknown := SpliceOut(g.unknown, c),
       turn := seat % SeatCount + 1)
  }

  /** The player whose turn it is plays one card. `None` when the turn names no
      seat or the AI's `reduce` meets an empty list. */
  function PlayCard(g: Game): (r: Option<Game>)
    requires Shaped(g)
    ensures r.Some? <==> 1 <= g.turn <= SeatCount && ChosenCard(g).Some?
    ensures r.Some? ==>
              && Shaped(r.value)
              && |r.value.trick.cards| == |g.trick.cards| + 1
              && r.value.trick.cards[..|g.trick.cards|] == g.trick.cards
              && r.value.trick.cards[|g.trick.cards|].card == ChosenCard(g).value
              && Sum(r.value.stats.played) == Sum(g.stats.played) + 1
              && r.value.stats.won == g.stats.won
              && r.value.turn == SeatAfter(g.turn, 1)
              && r.value.trump == g.trump && r.value.left == g.left
              && r.value.leadPlayer == g.leadPlayer && r.value.dealer == g.dealer
  {
    if !(1 <= g.turn <= SeatCount) then None
    else
      match ChosenCard(g)
      case None => None
      case Some(c) => Some(ApplyPlay(g, c))
  }

  /** `k` plays in a row. */
  function PlayTimes(g: Game, k: nat): (r: Option<Game>)
    requires Shaped(g)
    ensures r.Some? ==>
              && Shaped(r.value)
              && |r.value.trick.cards| == |g.trick.cards| + k
              && r.value.trick.cards[..|g.trick.cards|] == g.trick.cards
              && Sum(r.value.stats.played) == Sum(g.stats.played) + k
              && r.value.stats.won == g.stats.won
              && r.value.trump == g.trump && r.value.left == g.left
              && r.value.leadPlayer == g.leadPlayer && r.value.dealer == g.dealer
    decreases k
  {
    if k == 0 then Some(g)
    else
      match PlayTimes(g, k - 1)
      case None => None
      case Some(h) => PlayCard(h)
  }

  /** The end of a trick: the strongest card (the last of equal ones) wins, its
      token is counted as won, and the seat found from its index leads next. */
  function CloseTrick(h: Game): (r: Option<Game>)
    requires Shaped(h)
    ensures r.Some? <==> |h.trick.cards| > 0
    ensures r.Some? ==>
              var winner := h.trick.cards[MaxIndex(h.trick.cards)];
              && Shaped(r.value)
              && (forall v :: 0 <= v < TokenCount ==>
                    r.value.stats.won[v] == h.stats.won[v] + (if v == Value(winner) then 1 else 0))
              && Sum(r.value.stats.won) == Sum(h.stats.won) + 1
              && r.value.stats.played == h.stats.played
              && (1 <= h.leadPlayer <= SeatCount ==> 1 <= r.value.leadPlayer <= SeatCount)
              && r.value.turn == r.value.leadPlayer
              && r.value.trick == Trick([], None)
              && r.value.hands == h.hands && r.value.unknown == h.unknown
              && r.value.trump == h.trump && r.value.left == h.left && r.value.dealer == h.dealer
  {
    if |h.trick.cards| == 0 then None
    else
      var winner := h.trick.cards[MaxIndex(h.trick.cards)];
      assert CardsOf(h.trick.cards)[MaxIndex(h.trick.cards)] == winner.card;
      var index := FindIndex(CardsOf(h.trick.cards), winner.card);
      var seat := SeatOfIndex(h.leadPlayer, index);
      Some(h.(stats := h.stats.(won := Bump(h.stats.won, winner.value)),
              leadPlayer := seat,
              turn := seat,
              trick := Trick([], None)))
  }

  /** A whole trick: four plays, then the trick is closed. */
  function PlayTrick(g: Game): (r: Option<Game>)
    requires Shaped(g)
    ensures r.Some? ==>
              && Shaped(r.value)
              && r.value.trick == Trick([], None)
              && r.value.turn == r.value.leadPlayer
              && Sum(r.value.stats.played) == Sum(g.stats.played) + SeatCount
              && Sum(r.value.stats.won) == Sum(g.stats.won) + 1
              && r.value.trump == g.trump && r.value.left == g.left && r.value.dealer == g.dealer
  {
    match PlayTimes(g, SeatCount)
    case None => None
    case Some(h) => CloseTrick(h)
  }

  /** The cards in the hands are pairwise distinct and all still unseen. */
  ghost predicate DisjointHands(hands: seq<seq<Card>>, unknown: seq<Card>)
    requires |hands| == SeatCount
  {
    && (forall i :: 0 <= i < SeatCount ==> Distinct(hands[i]))
    && (forall i, j, c :: 0 <= i < SeatCount && 0 <= j < SeatCount && i != j && c in hands[i] ==> c !in hands[j])
    && (forall i, c :: 0 <= i < SeatCount && c in hands[i] ==> c in unknown)
  }

  /** `DisjointHands` on a game's hands and unseen cards. */
  ghost predicate HandsUnseen(g: Game)
    requires |g.hands| == SeatCount
  {
    DisjointHands(g.hands, g.unknown)
  }

  /** The state after `k` plays of a trick whose players held `n` cards each at its
      start: the leader and the next `k - 1` seats have played one card each, the
      turn is `k` seats after the leader, the lead suit is the first card's printed
      suit, and every trick entry carries its token for that lead suit. */
  ghost predicate TrickInv(g: Game, k: nat, n: nat)
  {
    && Shaped(g)
    && HandsUnseen(g)
    && g.left == LeftBauerSuit(g.trump)
    && 1 <= g.leadPlayer <= SeatCount
    && k <= SeatCount
    && |g.trick.cards| == k
    && g.turn == SeatAfter(g.leadPlayer, k)
    && (k == 0 <==> g.trick.leadSuit.None?)
    && (k > 0 ==> g.trick.leadSuit == Some(g.trick.cards[0].card.suit))
    && Resolved(g.trick.cards, g.trump, g.left, g.trick.leadSuit)
    && Distinct(CardsOf(g.trick.cards))
    && (forall a, i :: 0 <= a < k && 0 <= i < SeatCount ==> g.trick.cards[a].card !in g.hands[i])
    && (forall i :: 0 <= i < SeatCount ==>
          |g.hands[i]| + (if Offset(i + 1, g.leadPlayer) < k then 1 else 0) == n)
    && WonWithinPlayed(g.stats, g.trick.cards)
  }

  /** Between tricks: the trick is empty and every hand has the same size. */
  ghost predicate BetweenTricks(g: Game)
  {
    |g.hands| == SeatCount && Shaped(g) && TrickInv(g, 0, |g.hands[0]|)
  }

  /** Removing a held card from its hand and from the unseen cards keeps the hands
      disjoint and unseen, and the card is then in no hand. */
  lemma RemoveFromHands(hands: seq<seq<Card>>, unknown: seq<Card>, p: nat, c: Card)
    requires |hands| == SeatCount && p < SeatCount
    requires DisjointHands(hands, unknown)
    requires c in hands[p]
    ensures var hands' := hands[p := Without(hands[p], c)];
            && DisjointHands(hands', SpliceOut(unknown, c))
            && (forall i :: 0 <= i < SeatCount ==> c !in hands'[i])
            && (forall i, x :: 0 <= i < SeatCount && x in hands'[i] ==> x in hands[i])
  {
    var hand' := Without(hands[p], c);
    var hands' := hands[p := hand'];
    var unknown' := SpliceOut(unknown, c);
    WithoutRemovesOne(hands[p], c);
    SpliceOutRemovesOne(unknown, c);
    RemovalFromDistinct(hands[p], hand', c);
    forall i, x | 0 <= i < SeatCount && x in hands'[i]
      ensures x in hands[i] && x != c
    {
      if i == p {
        assert x in multiset(hand');
      }
    }
    forall i, x | 0 <= i < SeatCount && x in hands'[i]
      ensures x in unknown'
    {
      assert x in hands[i] && x != c;
      RemovalKeepsOthers(unknown, unknown', c, x);
    }
  }

  /** Playing a card of the current player's hand keeps the hands disjoint and
      unseen: the card leaves its hand entirely and no longer appears anywhere. */
  lemma ApplyPlayHands(g: Game, c: Card)
    requires Shaped(g) && 1 <= g.turn <= SeatCount && HandsUnseen(g)
    requires c in g.hands[g.turn - 1]
    ensures var g' := ApplyPlay(g, c);
            && HandsUnseen(g')
            && (forall i :: 0 <= i < SeatCount ==> c !in g'.hands[i])
            && (forall i, x :: 0 <= i < SeatCount && x in g'.hands[i] ==> x in g.hands[i])
            && multiset(g'.hands[g.turn - 1]) == multiset(g.hands[g.turn - 1]) - multiset{c}
            && |g'.hands[g.turn - 1]| == |g.hands[g.turn - 1]| - 1
            && (forall i :: 0 <= i < SeatCount && i != g.turn - 1 ==> g'.hands[i] == g.hands[i])
            && multiset(g'.unknown) == multiset(g.unknown) - multiset{c}
  {
    var p := g.turn - 1;
    assert ApplyPlay(g, c).hands == g.hands[p := Without(g.hands[p], c)];
    assert ApplyPlay(g, c).unknown == SpliceOut(g.unknown, c);
    RemoveFromHands(g.hands, g.unknown, p, c);
    WithoutRemovesOne(g.hands[p], c);
    assert c in g.unknown;
    SpliceOutRemovesOne(g.unknown, c);
  }

  /** The rest of the hand that played keeps its order: it is the hand without
      the card played, as rebuilding around the found index gives it. */
  lemma ApplyPlayKeepsOrder(g: Game, c: Card)
    requires Shaped(g) && 1 <= g.turn <= SeatCount && HandsUnseen(g)
    requires c in g.hands[g.turn - 1]
    ensures ApplyPlay(g, c).hands[g.turn - 1] == Filter(g.hands[g.turn - 1], (y: Card) => y != c)
  {
    var p := g.turn - 1;
    assert ApplyPlay(g, c).hands[p] == Without(g.hands[p], c);
    assert Distinct(g.hands[p]);
    WithoutInOrder(g.hands[p], c, (y: Card) => y != c);
  }

  /** Playing `c` puts it on the trick with its token for the (possibly just fixed)
      lead suit, and the trick keeps distinct cards resolved in one context. */
  lemma ApplyPlayTrick(g: Game, k: nat, n: nat, c: Card)
    requires TrickInv(g, k, n) && k < SeatCount
    requires forall a :: 0 <= a < k ==> g.trick.cards[a].card != c
    ensures var g' := ApplyPlay(g, c);
            && g'.trick.cards == g.trick.cards + [Valued(c, Resolve(c, g.trump, g.left, g'.trick.leadSuit))]
            && (k == 0 ==> g'.trick.leadSuit == Some(c.suit))
            && (k > 0 ==> g'.trick.leadSuit == g.trick.leadSuit)
            && g'.trick.leadSuit == Some(g'.trick.cards[0].card.suit)
            && Resolved(g'.trick.cards, g.trump, g.left, g'.trick.leadSuit)
            && Distinct(CardsOf(g'.trick.cards))
  {
    assert Shaped(g) && 1 <= g.turn <= SeatCount && |g.trick.cards| == k;
    assert (k == 0 <==> g.trick.leadSuit.None?);
    assert k > 0 ==> g.trick.leadSuit == Some(g.trick.cards[0].card.suit);
    assert Resolved(g.trick.cards, g.trump, g.left, g.trick.leadSuit);
    assert Distinct(CardsOf(g.trick.cards));
    hide Without, SpliceOut, Bump, Resolve, TrickInv;
    var g' := ApplyPlay(g, c);
    var before := CardsOf(g.trick.cards);
    var cards' := CardsOf(g'.trick.cards);
    assert cards' == before + [c];
    assert c !in before;
    forall y | y in cards'
      ensures multiset(cards')[y] == 1
    {
      if y != c {
        assert y in before;
      }
    }
  }

  /** Counting the played token keeps every token's won count within its played
      count, with the cards on the table outstanding. */
  lemma ApplyPlayCounts(g: Game, k: nat, n: nat, c: Card)
    requires TrickInv(g, k, n) && k < SeatCount
    ensures var g' := ApplyPlay(g, c);
            && WonWithinPlayed(g'.stats, g'.trick.cards)
            && Sum(g'.stats.played) == Sum(g.stats.played) + 1
            && g'.stats.won == g.stats.won
  {
    var g' := ApplyPlay(g, c);
    assert g'.trick.cards[..k] == g.trick.cards;
  }

  /** Playing a card of the current player's hand moves the state from `k` to
      `k + 1` cards on the trick. */
  lemma ApplyPlayStep(g: Game, k: nat, n: nat, c: Card)
    requires TrickInv(g, k, n) && k < SeatCount
    requires c in g.hands[g.turn - 1]
    ensures TrickInv(ApplyPlay(g, c), k + 1, n)
  {
    hide Resolve, Bump, Without, SpliceOut, CountValue, Sum, Resolved, ApplyPlay;
    var g' := ApplyPlay(g, c);
    var seat := g.turn;
    var l := g.leadPlayer;
    ApplyPlayHands(g, c);
    assert forall a :: 0 <= a < k ==> g.trick.cards[a].card != c;
    ApplyPlayTrick(g, k, n, c);
    ApplyPlayCounts(g, k, n, c);
    assert Offset(seat, l) == k;
    forall i | 0 <= i < SeatCount
      ensures |g'.hands[i]| + (if Offset(i + 1, l) < k + 1 then 1 else 0) == n
    {
      if i != seat - 1 {
        assert Offset(i + 1, l) != k;
      }
    }
    forall a, i | 0 <= a < k + 1 && 0 <= i < SeatCount
      ensures g'.trick.cards[a].card !in g'.hands[i]
    {
      if a < k {
        assert g'.trick.cards[a] == g.trick.cards[a];
      }
    }
    SeatOfIndexAgrees(l, k);
  }

  /** Each play succeeds and keeps the invariant: the card comes from the player's
      hand, leaves the hand (the rest keeping its order) and the unseen cards,
      goes on the trick with its token, fixes the lead suit if it is the first, is
      counted as played, and the turn moves one seat on. */
  lemma PlayCardStep(g: Game, k: nat, n: nat)
    requires TrickInv(g, k, n) && k < SeatCount && n >= 1
    ensures PlayCard(g).Some? && |PlayCard(g).value.trick.cards| == k + 1
    ensures var g' := PlayCard(g).value;
            var seat := g.turn;
            var c := g'.trick.cards[k].card;
            && TrickInv(g', k + 1, n)
            && ChosenCard(g) == Some(c)
            && c in g.hands[seat - 1]
            && multiset(g'.hands[seat - 1]) == multiset(g.hands[seat - 1]) - multiset{c}
            && g'.hands[seat - 1] == Filter(g.hands[seat - 1], (y: Card) => y != c)
            && (forall i :: 0 <= i < SeatCount && i != seat - 1 ==> g'.hands[i] == g.hands[i])
            && multiset(g'.unknown) == multiset(g.unknown) - multiset{c}
            && g'.trick.cards == g.trick.cards + [Valued(c, Resolve(c, g.trump, g.left, g'.trick.leadSuit))]
            && (k == 0 ==> g'.trick.leadSuit == Some(c.suit))
            && g'.turn == seat % SeatCount + 1
            && g'.stats.played == Bump(g.stats.played, g'.trick.cards[k].value)
            && Sum(g'.stats.played) == Sum(g.stats.played) + 1
            && g'.stats.won == g.stats.won
            && g'.trump == g.trump && g'.left == g.left && g'.leadPlayer == g.leadPlayer && g'.dealer == g.dealer
  {
    hide ChooseCard, LegalPlays, Without, SpliceOut, Bump, Filter;
    var seat := g.turn;
    assert Offset(seat, g.leadPlayer) == k;
    var hand := g.hands[seat - 1];
    assert |hand| == n;
    ChooseCardDefined(hand, g.trick.cards, g.trick.leadSuit, g.trump, g.left, g.unknown);
    var c := ChosenCard(g).value;
    assert PlayCard(g) == Some(ApplyPlay(g, c));
    ApplyPlayHands(g, c);
    ApplyPlayKeepsOrder(g, c);
    assert forall a :: 0 <= a < k ==> g.trick.cards[a].card != c;
    ApplyPlayTrick(g, k, n, c);
    ApplyPlayCounts(g, k, n, c);
    ApplyPlayStep(g, k, n, c);
  }

  /** The part of `PlayCardStep` that a run of plays needs. */
  lemma PlayCardKeeps(g: Game, k: nat, n: nat)
    requires TrickInv(g, k, n) && k < SeatCount && n >= 1
    ensures PlayCard(g).Some?
    ensures var g' := PlayCard(g).value;
            && TrickInv(g', k + 1, n)
            && g'.trick.cards[..k] == g.trick.cards
            && Sum(g'.stats.played) == Sum(g.stats.played) + 1
            && g'.stats.won == g.stats.won
            && g'.trump == g.trump && g'.left == g.left && g'.leadPlayer == g.leadPlayer && g'.dealer == g.dealer
  {
    PlayCardStep(g, k, n);
    var g' := PlayCard(g).value;
    assert g'.trick.cards[..k] == g.trick.cards;
  }

  /** `m` further plays of a trick succeed and keep the invariant. */
  lemma {:induction false} PlayTimesStep(g: Game, k: nat, n: nat, m: nat)
    requires Shaped(g) && TrickInv(g, k, n) && k + m <= SeatCount && n >= 1
    ensures PlayTimes(g, m).Some?
    ensures var h := PlayTimes(g, m).value;
            && TrickInv(h, k + m, n)
            && Sum(h.stats.played) == Sum(g.stats.played) + m
            && h.stats.won == g.stats.won
            && h.trump == g.trump && h.left == g.left && h.leadPlayer == g.leadPlayer && h.dealer == g.dealer
    decreases m
  {
    hide PlayCard, TrickInv, ChosenCard, ApplyPlay, ChooseCard, LegalPlays, Resolve, Without, SpliceOut;
    if m > 0 {
      PlayTimesStep(g, k, n, m - 1);
      var h := PlayTimes(g, m - 1).value;
      PlayCardKeeps(h, k + m - 1, n);
    }
  }

  /** The winner of a full trick strictly outranks every other card of it (the
      lead card is never `Unranked` and distinct cards never share a live token),
      and the seat computed from its index is the seat that played it. */
  lemma TrickWinnerStrict(h: Game, n: nat)
    requires TrickInv(h, SeatCount, n)
    ensures var cards := h.trick.cards;
            var w := MaxIndex(cards);
            && Value(cards[w]) >= 1
            && (forall j :: 0 <= j < |cards| && j != w ==> Value(cards[j]) < Value(cards[w]))
            && FindIndex(CardsOf(cards), cards[w].card) == w
            && SeatOfIndex(h.leadPlayer, w) == SeatAfter(h.leadPlayer, w)
  {
    var cards := h.trick.cards;
    var lead := h.trick.leadSuit;
    var w := MaxIndex(cards);
    LeadCardRanked(cards[0].card, h.trump, h.left);
    assert Value(cards[0]) >= 1;
    forall j | 0 <= j < |cards| && j != w
      ensures Value(cards[j]) < Value(cards[w])
    {
      if j < w {
        DistinctPairs(CardsOf(cards), j, w);
      } else {
        DistinctPairs(CardsOf(cards), w, j);
      }
      if Value(cards[j]) == Value(cards[w]) {
        ResolveInjective(cards[j].card, cards[w].card, h.trump, h.left, lead);
      }
    }
    assert CardsOf(cards)[w] == cards[w].card;
    SeatOfIndexAgrees(h.leadPlayer, w);
  }

  /** Closing a full trick leaves every hand one card shorter than at the trick's
      start, counts the winner's token once as won, hands the lead and the turn to
      the winning seat, and clears the trick. The winner is strictly the strongest
      card, and the winning seat is the one that played it. */
  lemma CloseTrickStep(h: Game, n: nat)
    requires TrickInv(h, SeatCount, n) && n >= 1
    ensures CloseTrick(h).Some?
    ensures var g' := CloseTrick(h).value;
            var cards := h.trick.cards;
            var w := MaxIndex(cards);
            && (forall j :: 0 <= j < |cards| && j != w ==> Value(cards[j]) < Value(cards[w]))
            && g'.leadPlayer == SeatAfter(h.leadPlayer, w)
            && g'.turn == g'.leadPlayer
            && (forall v :: 0 <= v < TokenCount ==>
                  g'.stats.won[v] == h.stats.won[v] + (if v == Value(cards[w]) then 1 else 0))
            && BetweenTricks(g')
            && |g'.hands[0]| == n - 1
            && g'.hands == h.hands && g'.unknown == h.unknown
            && g'.stats.played == h.stats.played
            && Sum(g'.stats.won) == Sum(h.stats.won) + 1
            && g'.trump == h.trump && g'.left == h.left && g'.dealer == h.dealer
  {
    hide Resolve, Without, SpliceOut, DisjointHands, FindIndex, JsRem;
    TrickWinnerStrict(h, n);
    var cards := h.trick.cards;
    var w := MaxIndex(cards);
    var winner := cards[w];
    var seat := SeatOfIndex(h.leadPlayer, w);
    var g' := CloseTrick(h).value;
    assert g' == h.(stats := h.stats.(won := Bump(h.stats.won, winner.value)),
                    leadPlayer := seat, turn := seat, trick := Trick([], None));
    CountValueMember(cards, w);
    forall v | 0 <= v < TokenCount
      ensures g'.stats.won[v] + CountValue(g'.trick.cards, v) <= g'.stats.played[v]
    {
    }
    forall i | 0 <= i < SeatCount
      ensures |h.hands[i]| + 1 == n
    {
      assert Offset(i + 1, h.leadPlayer) < SeatCount;
    }
    assert |g'.hands[0]| == n - 1;
    forall i | 0 <= i < SeatCount
      ensures |g'.hands[i]| + (if Offset(i + 1, g'.leadPlayer) < 0 then 1 else 0) == n - 1
    {
    }
  }

  /** A trick from a between-tricks state with cards in hand succeeds: each seat
      plays once, each hand shrinks by one, four cards are counted as played and the
      winner's token once as won; the winning seat leads next and the trick is cleared. */
  lemma PlayTrickStep(g: Game)
    requires BetweenTricks(g) && |g.hands[0]| >= 1
    ensures PlayTrick(g).Some? && PlayTimes(g, SeatCount).Some?
    ensures var g' := PlayTrick(g).value;
            var cards := PlayTimes(g, SeatCount).value.trick.cards;
            var w := MaxIndex(cards);
            && |cards| == SeatCount
            && (forall j :: 0 <= j < |cards| && j != w ==> Value(cards[j]) < Value(cards[w]))
            && g'.leadPlayer == SeatAfter(g.leadPlayer, w)
            && g'.turn == g'.leadPlayer
            && (forall v :: 0 <= v < TokenCount ==>
                  g'.stats.won[v] == g.stats.won[v] + (if v == Value(cards[w]) then 1 else 0))
            && BetweenTricks(g')
            && |g'.hands[0]| == |g.hands[0]| - 1
            && Sum(g'.stats.played) == Sum(g.stats.played) + SeatCount
            && Sum(g'.stats.won) == Sum(g.stats.won) + 1
            && g'.trump == g.trump && g'.left == g.left && g'.dealer == g.dealer
  {
    assert |g.trick.cards| == 0;
    hide PlayCard, TrickInv, CloseTrick, ChosenCard, ApplyPlay, ChooseCard, LegalPlays, Resolve, Without, SpliceOut;
    var n := |g.hands[0]|;
    PlayTimesStep(g, 0, n, SeatCount);
    var h := PlayTimes(g, SeatCount).value;
    CloseTrickStep(h, n);
  }
}

=== FILE: policy.dfy ===
/** The trick AI: a deterministic choice of one playable card from the trick so
    far, trump and left-bower suits, the player's own hand and the cards not yet
    seen this round. `None` is the TypeError a seedless `reduce` throws on an
    empty list. */
module Policy {
  import opened Cards
  import opened Seqs
  import opened Resolution
  import opened Extremes
  import opened Legality

  /** My team holds the trick: I lead, or my partner's card (two seats back) beats
      the card played after it, or (third to play) my partner's card beats both
      neighbours. Before the last play this means exactly: I lead, or my partner has
      played and holds the strictly strongest card so far. */
  function TeamControls(trick: seq<Valued>): (b: bool)
    ensures |trick| < 4 ==>
              (b <==> |trick| == 0 ||
                      (|trick| >= 2 && forall j :: 0 <= j < |trick| && j != |trick| - 2 ==>
                                         Value(trick[j]) < Value(trick[|trick| - 2])))
  {
    || |trick| == 0
    || (|trick| == 2 && Value(trick[0]) > Value(trick[1]))
    || (|trick| == 3 && Value(trick[1]) > Value(trick[2]) && Value(trick[1]) > Value(trick[0]))
  }

  /** Whether an entry is counted for suit `s`: the trump bucket takes the trump
      suit and the left bower, the other buckets their printed suit minus the left
      bower. Anything else falls through to `undefined`, i.e. is not counted. */
  predicate InSuitBucket(x: Valued, s: Suit, trump: Suit)
  {
    if s == trump then x.card.suit == trump || x.value == LeftBauer
    else x.card.suit == s && x.value != LeftBauer
  }

  /** The length of the filter that counts suit `s`. */
  function SuitCount(playable: seq<Valued>, s: Suit, trump: Suit): nat
  {
    if |playable| == 0 then 0
    else (if InSuitBucket(playable[0], s, trump) then 1 else 0) + SuitCount(playable[1..], s, trump)
  }

  /** A suit is counted exactly when some entry falls in its bucket. */
  lemma {:induction false} SuitCountPositive(playable: seq<Valued>, s: Suit, trump: Suit)
    ensures SuitCount(playable, s, trump) > 0 <==>
            exists i :: 0 <= i < |playable| && InSuitBucket(playable[i], s, trump)
  {
    if |playable| > 0 {
      SuitCountPositive(playable[1..], s, trump);
      if exists i :: 0 <= i < |playable| && InSuitBucket(playable[i], s, trump) {
        var i :| 0 <= i < |playable| && InSuitBucket(playable[i], s, trump);
        if i > 0 {
          assert playable[1..][i - 1] == playable[i];
        }
      }
      if exists i :: 0 <= i < |playable[1..]| && InSuitBucket(playable[1..][i], s, trump) {
        var i :| 0 <= i < |playable[1..]| && InSuitBucket(playable[1..][i], s, trump);
        assert playable[i + 1] == playable[1..][i];
      }
    }
  }

  /** A suit's count is exactly one when exactly one entry falls in its bucket. */
  lemma {:induction false} SuitCountOne(playable: seq<Valued>, s: Suit, trump: Suit)
    ensures SuitCount(playable, s, trump) == 1 <==>
            exists i :: 0 <= i < |playable| && InSuitBucket(playable[i], s, trump)
              && forall j :: 0 <= j < |playable| && j != i ==> !InSuitBucket(playable[j], s, trump)
  {
    if |playable| > 0 {
      var tail := playable[1..];
      SuitCountOne(tail, s, trump);
      SuitCountPositive(tail, s, trump);
      assert SuitCount(playable, s, trump) ==
             (if InSuitBucket(playable[0], s, trump) then 1 else 0) + SuitCount(tail, s, trump);
      hide SuitCount, InSuitBucket;
      if SuitCount(playable, s, trump) == 1 {
        if InSuitBucket(playable[0], s, trump) {
          forall j | 0 <= j < |playable| && j != 0
            ensures !InSuitBucket(playable[j], s, trump)
          {
            assert tail[j - 1] == playable[j];
          }
        } else {
          var i :| 0 <= i < |tail| && InSuitBucket(tail[i], s, trump)
                   && forall j :: 0 <= j < |tail| && j != i ==> !InSuitBucket(tail[j], s, trump);
          forall j | 0 <= j < |playable| && j != i + 1
            ensures !InSuitBucket(playable[j], s, trump)
          {
            if j > 0 {
              assert tail[j - 1] == playable[j];
            }
          }
          assert InSuitBucket(playable[i + 1], s, trump);
        }
      }
      if exists i :: 0 <= i < |playable| && InSuitBucket(playable[i], s, trump)
           && forall j :: 0 <= j < |playable| && j != i ==> !InSuitBucket(playable[j], s, trump) {
        var i :| 0 <= i < |playable| && InSuitBucket(playable[i], s, trump)
                 && forall j :: 0 <= j < |playable| && j != i ==> !InSuitBucket(playable[j], s, trump);
        if i == 0 {
          forall j | 0 <= j < |tail|
            ensures !InSuitBucket(tail[j], s, trump)
          {
            assert tail[j] == playable[j + 1];
          }
        } else {
          assert !InSuitBucket(playable[0], s, trump);
          assert InSuitBucket(tail[i - 1], s, trump);
          forall j | 0 <= j < |tail| && j != i - 1
            ensures !InSuitBucket(tail[j], s, trump)
          {
            assert tail[j] == playable[j + 1];
          }
        }
      }
    }
  }

  predicate IsShortSuit(playable: seq<Valued>, s: Suit, trump: Suit)
  {
    s != trump && SuitCount(playable, s, trump) == 1
  }

  /** The non-trump suits in which exactly one playable card is held, in suit order. */
  function SuitsToShort(playable: seq<Valued>, trump: Suit): seq<Suit>
  {
    (if IsShortSuit(playable, Spades, trump) then [Spades] else [])
    + (if IsShortSuit(playable, Hearts, trump) then [Hearts] else [])
    + (if IsShortSuit(playable, Clubs, trump) then [Clubs] else [])
    + (if IsShortSuit(playable, Diamonds, trump) then [Diamonds] else [])
  }

  /** A suit is listed exactly when it is not trump and its count is one, that is,
      exactly one playable entry falls in its bucket. */
  lemma SuitsToShortMembers(playable: seq<Valued>, trump: Suit)
    ensures forall s :: s in SuitsToShort(playable, trump) <==> IsShortSuit(playable, s, trump)
    ensures forall s :: s in SuitsToShort(playable, trump) <==>
              s != trump &&
              exists i :: 0 <= i < |playable| && InSuitBucket(playable[i], s, trump) &&
                          forall j :: 0 <= j < |playable| && j != i ==> !InSuitBucket(playable[j], s, trump)
  {
    forall s
      ensures IsShortSuit(playable, s, trump) <==>
              s != trump &&
              exists i :: 0 <= i < |playable| && InSuitBucket(playable[i], s, trump) &&
                          forall j :: 0 <= j < |playable| && j != i ==> !InSuitBucket(playable[j], s, trump)
    {
      SuitCountOne(playable, s, trump);
    }
  }

  /** A self-shortening candidate: an entry below value 5 (below King) of a
      non-trump suit in which exactly one playable entry is counted. */
  predicate ShortCandidate(x: Valued, playable: seq<Valued>, trump: Suit)
  {
    IsShortSuit(playable, x.card.suit, trump) && Value(x) < 5
  }

  /** Self-shortening applies: some trump is held and some side suit is a singleton. */
  predicate Shortening(playable: seq<Valued>, trump: Suit)
  {
    SuitCount(playable, trump, trump) > 0 && exists s :: IsShortSuit(playable, s, trump)
  }

  /** Self-shortening: with some trump in hand and a singleton side suit, discard
      the weakest card below value 5 of such a suit; otherwise play the weakest card. */
  function ShortOrLowest(playable: seq<Valued>, trump: Suit): (r: Option<Card>)
    ensures r.Some? ==> exists i :: 0 <= i < |playable| && playable[i].card == r.value
  {
    var shortSuits := SuitsToShort(playable, trump);
    if SuitCount(playable, trump, trump) > 0 && |shortSuits| > 0 then
      var candidates := Filter(playable, (x: Valued) => x.card.suit in shortSuits && Value(x) < 5);
      if |candidates| == 0 then None
      else
        var k := MinIndex(candidates);
        assert candidates[k] in playable;
        Some(candidates[k].card)
    else if |playable| == 0 then None
    else Some(playable[MinIndex(playable)].card)
  }

  /** Some cards not yet seen this round AND held in my own hand are trump above the
      (plain) rank of my best card, or are the left bower. Cards outside my own hand
      never matter, and since no plain rank reaches the left bower's value, holding
      it unseen always counts. */
  function HigherTrumpPossible(unknown: seq<Card>, ownHand: seq<Card>, trump: Suit, left: Suit, best: Card): (b: bool)
    ensures b <==> exists c :: c in ownHand && c in unknown &&
                     ((c.suit == trump && PlainValue(c.rank) > PlainValue(best.rank)) || c == Card(Jack, left))
  {
    exists i :: 0 <= i < |unknown| && unknown[i] in ownHand &&
      ((unknown[i].suit == trump && PlainValue(unknown[i].rank) > PlainValue(best.rank))
       || (unknown[i].suit == left && unknown[i].rank == Jack && RankValue(LeftBauer) > PlainValue(best.rank)))
  }

  /** The card the AI plays. */
  function ChooseCard(playable: seq<Valued>, trick: seq<Valued>, trump: Suit, left: Suit,
                      ownHand: seq<Card>, unknown: seq<Card>): (r: Option<Card>)
    ensures r.Some? ==> exists i :: 0 <= i < |playable| && playable[i].card == r.value
    ensures |playable| == 0 ==> r == None
  {
    if TeamControls(trick) then
      if |trick| == 0 then
        if |playable| == 0 then None
        else
          var highest := playable[MaxIndex(playable)];
          if HigherTrumpPossible(unknown, ownHand, trump, left, highest.card) then
            var nonTrump := Filter(playable, (x: Valued) => Value(x) < 7);
            if |nonTrump| == 0 then Some(highest.card)
            else
              var k := MaxIndex(nonTrump);
              assert nonTrump[k] in playable;
              Some(nonTrump[k].card)
          else Some(highest.card)
      else ShortOrLowest(playable, trump)
    else
      var controlling := MaxValue(trick);
      var winners := Filter(playable, (x: Valued) => Value(x) > controlling);
      if |winners| > 0 then
        var k := MinIndex(winners);
        assert winners[k] in playable;
        Some(winners[k].card)
      else ShortOrLowest(playable, trump)
  }
}

=== FILE: policy_properties.dfy ===
/** What the trick AI guarantees: it always returns a playable card when its
    playable list comes from the legality filter, and it overtakes with the
    cheapest sufficient card when the opponents hold the trick. */
module PolicyProperties {
  import opened Cards
  import opened Seqs
  import opened Resolution
  import opened Extremes
  import opened Legality
  import opened Policy

  /** The self-shortening branch never meets an empty candidate list when the
      playable cards come from the legality filter during a started trick:
      following a lead leaves either no trump or no side suit in the list, and
      when nothing follows every side-suit card is `Unranked` (value 0 < 5). */
  lemma ShortOrLowestDefined(hand: seq<Card>, trickSize: nat, lead: Suit, trump: Suit, left: Suit)
    requires trickSize > 0
    requires |hand| > 0
    ensures ShortOrLowest(LegalPlays(hand, trickSize, Some(lead), trump, left), trump).Some?
  {
    hide MinIndex, LegalPlays, Playable, SuitCount, SuitsToShort;
    var cards := ResolveAll(hand, trump, left, Some(lead));
    var playable := LegalPlays(hand, trickSize, Some(lead), trump, left);
    LegalPlaysSpec(hand, trickSize, Some(lead), trump, left);
    var shortSuits := SuitsToShort(playable, trump);
    SuitsToShortMembers(playable, trump);
    if SuitCount(playable, trump, trump) > 0 && |shortSuits| > 0 {
      var s := shortSuits[0];
      assert s in shortSuits;
      assert s != trump && SuitCount(playable, s, trump) == 1;
      SuitCountPositive(playable, s, trump);
      SuitCountPositive(playable, trump, trump);
      if CanFollow(cards, Some(lead), trump) {
        assert false;
      }
      assert playable == cards;
      var i :| 0 <= i < |playable| && InSuitBucket(playable[i], s, trump);
      var x := playable[i];
      assert !FollowsLead(cards[i], Some(lead), trump);
      assert x.value == Unranked;
      assert x.card.suit in shortSuits;
      FilterNonEmpty(playable, (y: Valued) => y.card.suit in shortSuits && Value(y) < 5);
    }
  }

  /** Without self-shortening the weakest playable entry is played, the last of
      equally weak ones, and there is a card exactly when the list is non-empty. */
  lemma LowestChoice(playable: seq<Valued>, trump: Suit)
    requires !Shortening(playable, trump)
    ensures var r := ShortOrLowest(playable, trump);
            && (r.Some? <==> |playable| > 0)
            && (r.Some? ==>
                  exists i :: 0 <= i < |playable| && playable[i].card == r.value
                    && (forall j :: 0 <= j < |playable| ==> Value(playable[i]) <= Value(playable[j]))
                    && forall j :: i < j < |playable| ==> Value(playable[i]) < Value(playable[j]))
  {
    hide SuitCount, IsShortSuit;
    var shortSuits := SuitsToShort(playable, trump);
    SuitsToShortMembers(playable, trump);
    if |shortSuits| > 0 {
      assert IsShortSuit(playable, shortSuits[0], trump);
    }
  }

  /** The candidate test of the self-shortening branch, written with the list of
      suits to short, selects exactly the `ShortCandidate` entries. */
  lemma CandidatesAgree(playable: seq<Valued>, trump: Suit)
    ensures Filter(playable, (x: Valued) => x.card.suit in SuitsToShort(playable, trump) && Value(x) < 5)
            == Filter(playable, (x: Valued) => ShortCandidate(x, playable, trump))
  {
    hide SuitCount, IsShortSuit;
    SuitsToShortMembers(playable, trump);
    FilterAgree(playable, (x: Valued) => x.card.suit in SuitsToShort(playable, trump) && Value(x) < 5,
                (x: Valued) => ShortCandidate(x, playable, trump));
  }

  /** Unfolding step for `ShortestChoice`: with self-shortening, `ShortOrLowest`
      reduces the `ShortCandidate` entries to their minimum. */
  lemma ShortUnfold(playable: seq<Valued>, trump: Suit)
    requires Shortening(playable, trump)
    ensures var candidates := Filter(playable, (x: Valued) => ShortCandidate(x, playable, trump));
            ShortOrLowest(playable, trump) ==
              if |candidates| == 0 then None else Some(candidates[MinIndex(candidates)].card)
  {
    hide SuitCount, IsShortSuit, ShortCandidate, MinIndex;
    var shortSuits := SuitsToShort(playable, trump);
    SuitsToShortMembers(playable, trump);
    var s :| IsShortSuit(playable, s, trump);
    assert s in shortSuits;
    CandidatesAgree(playable, trump);
  }

  /** With self-shortening there is a card exactly when some candidate exists. */
  lemma ShortestDefined(playable: seq<Valued>, trump: Suit)
    requires Shortening(playable, trump)
    ensures ShortOrLowest(playable, trump).Some? <==>
              exists j :: 0 <= j < |playable| && ShortCandidate(playable[j], playable, trump)
  {
    var isShort := (x: Valued) => ShortCandidate(x, playable, trump);
    ShortUnfold(playable, trump);
    FilterNonEmpty(playable, isShort);
  }

  /** With self-shortening the card played is the last weakest candidate. */
  lemma ShortestPicked(playable: seq<Valued>, trump: Suit)
    requires Shortening(playable, trump)
    requires ShortOrLowest(playable, trump).Some?
    ensures exists i :: 0 <= i < |playable| && playable[i].card == ShortOrLowest(playable, trump).value
              && ShortCandidate(playable[i], playable, trump)
              && (forall j :: 0 <= j < |playable| && ShortCandidate(playable[j], playable, trump) ==>
                    Value(playable[i]) <= Value(playable[j]))
              && forall j :: i < j < |playable| && ShortCandidate(playable[j], playable, trump) ==>
                   Value(playable[i]) < Value(playable[j])
  {
    var isShort := (x: Valued) => ShortCandidate(x, playable, trump);
    var candidates := Filter(playable, isShort);
    ShortUnfold(playable, trump);
    hide ShortOrLowest, ShortCandidate, SuitCount, IsShortSuit, SuitsToShort, Filter, Shortening;
    FilterMinLast(playable, isShort);
  }

  /** With self-shortening the weakest candidate is played, the last of equally
      weak ones, and there is a card exactly when some candidate exists. */
  lemma ShortestChoice(playable: seq<Valued>, trump: Suit)
    requires Shortening(playable, trump)
    ensures var r := ShortOrLowest(playable, trump);
            && (r.Some? <==> exists j :: 0 <= j < |playable| && ShortCandidate(playable[j], playable, trump))
            && (r.Some? ==>
                  exists i :: 0 <= i < |playable| && playable[i].card == r.value
                    && ShortCandidate(playable[i], playable, trump)
                    && (forall j :: 0 <= j < |playable| && ShortCandidate(playable[j], playable, trump) ==>
                          Value(playable[i]) <= Value(playable[j]))
                    && forall j :: i < j < |playable| && ShortCandidate(playable[j], playable, trump) ==>
                         Value(playable[i]) < Value(playable[j]))
  {
    ShortestDefined(playable, trump);
    if ShortOrLowest(playable, trump).Some? {
      ShortestPicked(playable, trump);
    }
  }

  /** When the AI does not lead, and either its team holds the trick or nothing it
      holds beats every card played, it falls back on the defensive choice. */
  lemma DefensiveFallback(playable: seq<Valued>, trick: seq<Valued>, trump: Suit, left: Suit,
                          ownHand: seq<Card>, unknown: seq<Card>)
    requires |trick| > 0
    requires TeamControls(trick) ||
             forall k :: 0 <= k < |playable| ==> exists j :: 0 <= j < |trick| && Value(playable[k]) <= Value(trick[j])
    ensures ChooseCard(playable, trick, trump, left, ownHand, unknown) == ShortOrLowest(playable, trump)
  {
    if !TeamControls(trick) {
      var m := MaxValue(trick);
      var winners := Filter(playable, (x: Valued) => Value(x) > m);
      forall x | x in playable
        ensures Value(x) <= m
      {
        var k :| 0 <= k < |playable| && playable[k] == x;
        var j :| 0 <= j < |trick| && Value(playable[k]) <= Value(trick[j]);
      }
      FilterNonEmpty(playable, (x: Valued) => Value(x) > m);
    }
  }

  /** The AI always returns a card of its playable list when that list is the legal
      set of a non-empty hand, the trick's lead suit being set once the trick has a
      card; so none of its seedless `reduce` calls sees an empty list. */
  lemma ChooseCardDefined(hand: seq<Card>, trick: seq<Valued>, lead: Option<Suit>, trump: Suit, left: Suit,
                          unknown: seq<Card>)
    requires |hand| > 0
    requires |trick| > 0 ==> lead.Some?
    ensures var playable := LegalPlays(hand, |trick|, lead, trump, left);
            var r := ChooseCard(playable, trick, trump, left, hand, unknown);
            r.Some? && r.value in hand
  {
    var playable := LegalPlays(hand, |trick|, lead, trump, left);
    LegalPlaysSpec(hand, |trick|, lead, trump, left);
    if |trick| > 0 {
      ShortOrLowestDefined(hand, |trick|, lead.value, trump, left);
    }
    var r := ChooseCard(playable, trick, trump, left, hand, unknown);
    var i :| 0 <= i < |playable| && playable[i].card == r.value;
  }

  /** When the opponents hold the trick and some playable card beats every card
      played so far, the AI plays the weakest such card (the last of equal ones). */
  lemma OvertakeWithCheapestWinner(playable: seq<Valued>, trick: seq<Valued>, trump: Suit, left: Suit,
                                   ownHand: seq<Card>, unknown: seq<Card>, w: Valued)
    requires !TeamControls(trick)
    requires w in playable && forall j :: 0 <= j < |trick| ==> Value(trick[j]) < Value(w)
    ensures var r := ChooseCard(playable, trick, trump, left, ownHand, unknown);
            && r.Some?
            && exists i :: 0 <= i < |playable| && playable[i].card == r.value
                 && (forall j :: 0 <= j < |trick| ==> Value(trick[j]) < Value(playable[i]))
                 && forall k :: 0 <= k < |playable| && (forall j :: 0 <= j < |trick| ==> Value(trick[j]) < Value(playable[k]))
                      ==> Value(playable[i]) <= Value(playable[k])
  {
    var m := MaxValue(trick);
    var winners := Filter(playable, (x: Valued) => Value(x) > m);
    var j0 :| 0 <= j0 < |trick| && Value(trick[j0]) == m;
    FilterNonEmpty(playable, (x: Valued) => Value(x) > m);
    var k := MinIndex(winners);
    var x := winners[k];
    var i :| 0 <= i < |playable| && playable[i] == x;
    forall k' | 0 <= k' < |playable| && (forall j :: 0 <= j < |trick| ==> Value(trick[j]) < Value(playable[k']))
      ensures Value(x) <= Value(playable[k'])
    {
      assert Value(trick[j0]) < Value(playable[k']);
      assert playable[k'] in winners;
    }
  }

  /** Unfolding step for `LeadChoice`: with an empty trick, `ChooseCard` reduces to
      its leader's branch, so `LeadChoice` can reason about that branch with
      `ChooseCard` hidden. */
  lemma LeadUnfold(playable: seq<Valued>, trump: Suit, left: Suit, ownHand: seq<Card>, unknown: seq<Card>)
    requires |playable| > 0
    ensures var best := playable[MaxIndex(playable)];
            var nonTrump := Filter(playable, (x: Valued) => Value(x) < 7);
            ChooseCard(playable, [], trump, left, ownHand, unknown) ==
              if HigherTrumpPossible(unknown, ownHand, trump, left, best.card) && |nonTrump| > 0
              then Some(nonTrump[MaxIndex(nonTrump)].card)
              else Some(best.card)
  {
    hide ShortOrLowest, HigherTrumpPossible;
    assert TeamControls([]);
  }

  /** Leading with no higher trump in view, the AI plays its strongest card (the
      last of equal ones); with one in view it leads its strongest card below
      value 7 (again the last of equal ones) if it has one, and its strongest card
      when it holds only trump. */
  lemma LeadChoice(playable: seq<Valued>, trump: Suit, left: Suit, ownHand: seq<Card>, unknown: seq<Card>)
    requires |playable| > 0
    ensures var r := ChooseCard(playable, [], trump, left, ownHand, unknown);
            var best := playable[MaxIndex(playable)];
            && r.Some?
            && (!HigherTrumpPossible(unknown, ownHand, trump, left, best.card) ==> r.value == best.card)
            && (HigherTrumpPossible(unknown, ownHand, trump, left, best.card) &&
                (exists j :: 0 <= j < |playable| && Value(playable[j]) < 7) ==>
                  exists i :: 0 <= i < |playable| && playable[i].card == r.value && Value(playable[i]) < 7
                    && (forall j :: 0 <= j < |playable| && Value(playable[j]) < 7 ==> Value(playable[j]) <= Value(playable[i]))
                    && forall j :: i < j < |playable| && Value(playable[j]) < 7 ==> Value(playable[j]) < Value(playable[i]))
            && (HigherTrumpPossible(unknown, ownHand, trump, left, best.card) &&
                (forall j :: 0 <= j < |playable| ==> Value(playable[j]) >= 7) ==>
                  r.value == best.card)
  {
    hide ChooseCard, ShortOrLowest, HigherTrumpPossible, Filter, MaxIndex;
    LeadUnfold(playable, trump, left, ownHand, unknown);
    var best := playable[MaxIndex(playable)];
    var nonTrump := Filter(playable, (x: Valued) => Value(x) < 7);
    if exists j :: 0 <= j < |playable| && Value(playable[j]) < 7 {
      var j :| 0 <= j < |playable| && Value(playable[j]) < 7;
      FilterNonEmpty(playable, (x: Valued) => Value(x) < 7);
      FilterMaxLast(playable, (x: Valued) => Value(x) < 7);
    } else {
      FilterNonEmpty(playable, (x: Valued) => Value(x) < 7);
    }
  }

  /** The higher-trump check consults only the player's own hand: holding the left
      bower oneself counts as a higher trump "possibly out", so a leader holding
      the right bower, the left bower and the trump Nine (trump Spades) takes the
      no-non-trump fallback, which still leads the right bower. */
  lemma ExampleBowerLead()
    ensures var hand := [Card(Jack, Clubs), Card(Jack, Spades), Card(Nine, Spades)];
            var playable := LegalPlays(hand, 0, None, Spades, Clubs);
            && HigherTrumpPossible(FullDeck(), hand, Spades, Clubs, Card(Jack, Spades))
            && playable[MaxIndex(playable)].card == Card(Jack, Spades)
            && ChooseCard(playable, [], Spades, Clubs, hand, FullDeck()) == Some(Card(Jack, Spades))
  {
    var hand := [Card(Jack, Clubs), Card(Jack, Spades), Card(Nine, Spades)];
    LegalPlaysSpec(hand, 0, None, Spades, Clubs);
    var playable := LegalPlays(hand, 0, None, Spades, Clubs);
    assert playable == ResolveAll(hand, Spades, Clubs, None);
    ExampleBowerHand();
    hide LegalPlays;
    MaxIndexUnique(playable, 1);
    OwnLeftBowerTrips(hand, Spades, Clubs, Card(Jack, Spades));
    hide HigherTrumpPossible, FullDeck, ChooseCard;
    LeadChoice(playable, Spades, Clubs, hand, FullDeck());
  }

  /** With every card still unseen, holding one's own left bower always trips the
      higher-trump check, whatever the best card is. */
  lemma OwnLeftBowerTrips(hand: seq<Card>, trump: Suit, left: Suit, best: Card)
    requires Card(Jack, left) in hand
    ensures HigherTrumpPossible(FullDeck(), hand, trump, left, best)
  {
    FullDeckIsUniverse();
    assert Card(Jack, left) in FullDeck();
  }

  /** The higher-trump check firing: a leader holding J♣, J♠ and A♥ (trump Spades,
      every card unseen) holds its own left bower, so it leads its only non-trump
      card instead of the right bower. */
  lemma ExampleTrumpCheckLead()
    ensures var hand := [Card(Jack, Clubs), Card(Jack, Spades), Card(Ace, Hearts)];
            var playable := LegalPlays(hand, 0, None, Spades, Clubs);
            && HigherTrumpPossible(FullDeck(), hand, Spades, Clubs, Card(Jack, Spades))
            && playable[MaxIndex(playable)].card == Card(Jack, Spades)
            && ChooseCard(playable, [], Spades, Clubs, hand, FullDeck()) == Some(Card(Ace, Hearts))
  {
    var hand := [Card(Jack, Clubs), Card(Jack, Spades), Card(Ace, Hearts)];
    LegalPlaysSpec(hand, 0, None, Spades, Clubs);
    var playable := LegalPlays(hand, 0, None, Spades, Clubs);
    assert playable == [Valued(Card(Jack, Clubs), LeftBauer), Valued(Card(Jack, Spades), Trump(Jack)),
                        Valued(Card(Ace, Hearts), Unranked)];
    hide LegalPlays;
    MaxIndexUnique(playable, 1);
    OwnLeftBowerTrips(hand, Spades, Clubs, Card(Jack, Spades));
    hide HigherTrumpPossible, FullDeck, ChooseCard;
    LeadChoice(playable, Spades, Clubs, hand, FullDeck());
    assert Value(playable[2]) < 7;
  }
}

=== FILE: resolution.dfy ===
/** Left-bower suit mapping and the token resolver: what a card is worth once
    trump, the left-bower suit and (possibly) the lead suit are fixed. */
module Resolution {
  import opened Cards

  /** A card together with its resolved token (a hand entry or a trick entry). */
  datatype Valued = Valued(card: Card, value: Token)

  /** The bare cards of a list of entries. */
  function CardsOf(xs: seq<Valued>): (r: seq<Card>)
    ensures |r| == |xs|
    ensures forall i :: 0 <= i < |xs| ==> r[i] == xs[i].card
  {
    seq(|xs|, i requires 0 <= i < |xs| => xs[i].card)
  }

  /** Strength of an entry in the ordinal table. */
  function Value(x: Valued): nat
  {
    RankValue(x.value)
  }

  predicate IsBlack(s: Suit)
  {
    s == Spades || s == Clubs
  }

  /** The suit whose Jack is the left bower: the other suit of trump's colour. */
  function LeftBauerSuit(trump: Suit): (left: Suit)
    ensures left != trump
    ensures IsBlack(left) == IsBlack(trump)
  {
    match trump
    case Spades => Clubs
    case Hearts => Diamonds
    case Clubs => Spades
    case Diamonds => Hearts
  }

  /** Spades pairs with Clubs and Hearts with Diamonds, so the mapping is its own inverse. */
  lemma LeftBauerSuitInvolution(trump: Suit)
    ensures LeftBauerSuit(LeftBauerSuit(trump)) == trump
    ensures forall s: Suit :: s != trump && IsBlack(s) == IsBlack(trump) ==> s == LeftBauerSuit(trump)
  {
  }

  predicate IsLeftBower(c: Card, left: Suit)
  {
    c.suit == left && c.rank == Jack
  }

  /** A card belongs to trump when it is of the trump suit or is the left bower. */
  predicate IsTrumpCard(c: Card, trump: Suit, left: Suit)
  {
    c.suit == trump || IsLeftBower(c, left)
  }

  /** The token of `c`. `lead` is the trick's lead suit, `None` while the trick is
      empty, in which case every non-trump card resolves to `Unranked`. */
  function Resolve(c: Card, trump: Suit, left: Suit, lead: Option<Suit>): (t: Token)
    ensures t == LeftBauer <==> IsLeftBower(c, left)
    ensures IsTrumpToken(t) <==> IsTrumpCard(c, trump, left)
    ensures t.Plain? <==> !IsTrumpCard(c, trump, left) && lead == Some(c.suit)
    ensures t == Unranked <==> !IsTrumpCard(c, trump, left) && lead != Some(c.suit)
    ensures t.Plain? || t.Trump? ==> t.rank == c.rank
    ensures t.Trump? ==> c.suit == trump
  {
    var cardIsLeftBauer := c.suit == left && c.rank == Jack;
    if c.suit == trump || cardIsLeftBauer then
      (if cardIsLeftBauer then LeftBauer else Trump(c.rank))
    else if lead == Some(c.suit) then Plain(c.rank)
    else Unranked
  }

  /** The right bower is `Trump(Jack)`, the left bower `LeftBauer`, and no other
      card gets either token. */
  lemma BowersResolve(trump: Suit, lead: Option<Suit>)
    ensures Resolve(Card(Jack, trump), trump, LeftBauerSuit(trump), lead) == Trump(Jack)
    ensures Resolve(Card(Jack, LeftBauerSuit(trump)), trump, LeftBauerSuit(trump), lead) == LeftBauer
    ensures forall c: Card :: c != Card(Jack, trump) ==> Resolve(c, trump, LeftBauerSuit(trump), lead) != Trump(Jack)
    ensures forall c: Card :: c != Card(Jack, LeftBauerSuit(trump)) ==> Resolve(c, trump, LeftBauerSuit(trump), lead) != LeftBauer
  {
  }

  /** Within one context, two different cards that can win never share a token, so
      the strength order never ties between live cards. */
  lemma ResolveInjective(c: Card, d: Card, trump: Suit, left: Suit, lead: Option<Suit>)
    requires c != d
    requires Resolve(c, trump, left, lead) != Unranked
    requires Resolve(d, trump, left, lead) != Unranked
    ensures Resolve(c, trump, left, lead) != Resolve(d, trump, left, lead)
    ensures RankValue(Resolve(c, trump, left, lead)) != RankValue(Resolve(d, trump, left, lead))
  {
    RankValueBijective(Resolve(c, trump, left, lead), Resolve(d, trump, left, lead));
  }

  /** The card opening a trick resolves against its own suit, so it never is `Unranked`. */
  lemma LeadCardRanked(c: Card, trump: Suit, left: Suit)
    ensures Resolve(c, trump, left, Some(c.suit)) != Unranked
    ensures RankValue(Resolve(c, trump, left, Some(c.suit))) >= 1
  {
  }

  /** Resolving a whole hand (the `hand.map` that builds the playable entries):
      the entries carry the hand's cards in hand order, each with its own token. */
  function ResolveAll(hand: seq<Card>, trump: Suit, left: Suit, lead: Option<Suit>): (r: seq<Valued>)
    ensures CardsOf(r) == hand
    ensures Resolved(r, trump, left, lead)
    ensures |r| == |hand|
    ensures forall i :: 0 <= i < |r| ==> r[i] == Valued(hand[i], Resolve(hand[i], trump, left, lead))
  {
    seq(|hand|, i requires 0 <= i < |hand| => Valued(hand[i], Resolve(hand[i], trump, left, lead)))
  }

  /** Every entry of `xs` carries the token its card resolves to in this context. */
  ghost predicate Resolved(xs: seq<Valued>, trump: Suit, left: Suit, lead: Option<Suit>)
  {
    forall i :: 0 <= i < |xs| ==> xs[i].value == Resolve(xs[i].card, trump, left, lead)
  }

  /** Trump, left-bower suit Clubs: the hand Jack of Clubs, Jack of Spades, Nine of
      Spades resolves to left bower, right bower and trump Nine (values 12, 13, 7). */
  lemma ExampleBowerHand()
    ensures ResolveAll([Card(Jack, Clubs), Card(Jack, Spades), Card(Nine, Spades)], Spades, Clubs, None)
         == [Valued(Card(Jack, Clubs), LeftBauer), Valued(Card(Jack, Spades), Trump(Jack)),
             Valued(Card(Nine, Spades), Trump(Nine))]
    ensures RankValue(LeftBauer) == 12 && RankValue(Trump(Jack)) == 13 && RankValue(Trump(Nine)) == 7
  {
  }
}

=== FILE: round.dfy ===
/** Dealing, playing a round to the end, and the simulation loop that repeats
    deal and round while accumulating the per-token counters. The shuffled deck,
    the drawn trump suit and the drawn dealer seat are inputs. */
module Round {
  import opened Cards
  import opened Seqs
  import opened Resolution
  import opened GameState
  import opened Play

  /** The random draws of one deal: a shuffled deck, a trump suit and a dealer seat. */
  datatype DealInput = DealInput(deck: seq<Card>, trump: Suit, dealer: int)

  /** A shuffle of the 24-card deck and a seat in 1..4. */
  ghost predicate ValidDraw(d: DealInput)
  {
    |d.deck| == |FullDeck()| && Distinct(d.deck) && 1 <= d.dealer <= SeatCount
  }

  /** Every counter at zero, one pair per token. */
  function ZeroCounts(): (s: Stats)
    ensures |s.played| == |s.won| == TokenCount
    ensures forall v :: 0 <= v < TokenCount ==> s.played[v] == 0 && s.won[v] == 0
  {
    Stats(seq(TokenCount, _ => 0), seq(TokenCount, _ => 0))
  }

  /** The state before the first deal: empty hands, no trick, every card unseen and
      every counter at zero; dealer 1 and seat 2 to lead. The record starts with no
      trump, no left-bower suit and no turn; `Game` has no such empty values, so
      Spades, Clubs and seat 2 stand in for them. None of them is ever read: `Deal`
      overwrites all three before the first play. */
  function InitialGame(): (g: Game)
    ensures Shaped(g) && g.unknown == FullDeck()
    ensures WonWithinPlayed(g.stats, [])
    ensures Sum(g.stats.played) == 0 && Sum(g.stats.won) == 0
  {
    var z := ZeroCounts();
    ZeroSum(z.played);
    ZeroSum(z.won);
    Game([[], [], [], []], Spades, LeftBauerSuit(Spades), 1, 2, 2, Trick([], None), FullDeck(), z)
  }

  /** A list of zeros sums to zero. */
  lemma {:induction false} ZeroSum(xs: seq<nat>)
    requires forall i :: 0 <= i < |xs| ==> xs[i] == 0
    ensures Sum(xs) == 0
  {
    if |xs| > 0 {
      ZeroSum(xs[1..]);
    }
  }

  /** Five consecutive cards of the deck per seat, the left-bower suit of the drawn
      trump, the drawn dealer, the seat after the dealer to lead and play, and an
      empty trick. The unseen cards and the counters are kept. */
  function Deal(g: Game, d: DealInput): (r: Game)
    requires Shaped(g) && |d.deck| == |FullDeck()| && 1 <= d.dealer <= SeatCount
    ensures Shaped(r)
    ensures forall j :: 0 <= j < SeatCount ==> r.hands[j] == d.deck[HandSize * j .. HandSize * (j + 1)]
    ensures r.trump == d.trump && r.left == LeftBauerSuit(d.trump) && r.dealer == d.dealer
    ensures r.leadPlayer == r.turn == SeatAfter(d.dealer, 1)
    ensures r.trick == Trick([], None)
    ensures r.unknown == g.unknown && r.stats == g.stats
  {
    var lead := d.dealer % SeatCount + 1;
    g.(hands := [d.deck[0..5], d.deck[5..10], d.deck[10..15], d.deck[15..20]],
       trump := d.trump,
       left := LeftBauerSuit(d.trump),
       dealer := d.dealer,
       leadPlayer := lead,
       turn := lead,
       trick := Trick([], None))
  }

  /** A slice of a sequence without repeats has none either. */
  lemma DistinctSlice<T>(xs: seq<T>, a: nat, b: nat)
    requires Distinct(xs) && a <= b <= |xs|
    ensures Distinct(xs[a..b])
  {
    var s := xs[a..b];
    forall i, j | 0 <= i < j < |s|
      ensures s[i] != s[j]
    {
      DistinctPairs(xs, a + i, a + j);
    }
    DistinctFromPairs(s);
  }

  /** Two disjoint ranges of a sequence without repeats share no element. */
  lemma DisjointSlices<T>(xs: seq<T>, a: nat, b: nat, c: nat, e: nat, x: T)
    requires Distinct(xs) && a <= b <= c <= e <= |xs|
    ensures x in xs[a..b] ==> x !in xs[c..e]
  {
    if x in xs[a..b] && x in xs[c..e] {
      var i :| a <= i < b && xs[i] == x;
      var j :| c <= j < e && xs[j] == x;
      DistinctPairs(xs, i, j);
    }
  }

  /** Dealing a shuffled deck with every card unseen and the counters consistent
      starts a round: four disjoint hands of five cards and an empty trick led by
      the seat after the dealer. */
  lemma DealStartsRound(g: Game, d: DealInput)
    requires Shaped(g) && ValidDraw(d)
    requires g.unknown == FullDeck() && WonWithinPlayed(g.stats, [])
    ensures var r := Deal(g, d);
            && BetweenTricks(r)
            && |r.hands[0]| == HandSize
            && (forall j :: 0 <= j < SeatCount ==> |r.hands[j]| == HandSize)
  {
    var r := Deal(g, d);
    FullDeckIsUniverse();
    forall j | 0 <= j < SeatCount
      ensures Distinct(r.hands[j])
    {
      DistinctSlice(d.deck, HandSize * j, HandSize * (j + 1));
    }
    forall i, j, c | 0 <= i < SeatCount && 0 <= j < SeatCount && i != j && c in r.hands[i]
      ensures c !in r.hands[j]
    {
      if i < j {
        DisjointSlices(d.deck, HandSize * i, HandSize * (i + 1), HandSize * j, HandSize * (j + 1), c);
      } else {
        DisjointSlices(d.deck, HandSize * j, HandSize * (j + 1), HandSize * i, HandSize * (i + 1), c);
      }
    }
    assert DisjointHands(r.hands, r.unknown);
    forall i | 0 <= i < SeatCount
      ensures |r.hands[i]| + (if Offset(i + 1, r.leadPlayer) < 0 then 1 else 0) == HandSize
    {
    }
  }

  /** Tricks are played while the first seat still holds cards; afterwards every
      card counts as unseen again. */
  method PlayRound(g: Game) returns (r: Game)
    requires BetweenTricks(g)
    ensures Shaped(r)
    ensures forall i :: 0 <= i < SeatCount ==> |r.hands[i]| == 0
    ensures r.unknown == FullDeck()
    ensures r.trick == Trick([], None)
    ensures Sum(r.stats.played) == Sum(g.stats.played) + SeatCount * |g.hands[0]|
    ensures Sum(r.stats.won) == Sum(g.stats.won) + |g.hands[0]|
    ensures WonWithinPlayed(r.stats, [])
    ensures r.trump == g.trump && r.left == g.left && r.dealer == g.dealer
  {
    hide PlayCard, PlayTimes, CloseTrick;
    r := g;
    while |r.hands[0]| > 0
      invariant BetweenTricks(r)
      invariant Sum(r.stats.played) + SeatCount * |r.hands[0]| == Sum(g.stats.played) + SeatCount * |g.hands[0]|
      invariant Sum(r.stats.won) + |r.hands[0]| == Sum(g.stats.won) + |g.hands[0]|
      invariant r.trump == g.trump && r.left == g.left && r.dealer == g.dealer
      decreases |r.hands[0]|
    {
      PlayTrickStep(r);
      r := PlayTrick(r).value;
    }
    assert forall i :: 0 <= i < SeatCount ==> |r.hands[i]| + (if Offset(i + 1, r.leadPlayer) < 0 then 1 else 0) == 0;
    r := r.(unknown := FullDeck());
  }

  /** One deal followed by its round: twenty cards counted as played, five tricks
      counted as won, and every card unseen again. */
  method SimulateDeal(g: Game, d: DealInput) returns (r: Game)
    requires Shaped(g) && ValidDraw(d)
    requires g.unknown == FullDeck() && WonWithinPlayed(g.stats, [])
    ensures Shaped(r) && r.unknown == FullDeck() && WonWithinPlayed(r.stats, [])
    ensures Sum(r.stats.played) == Sum(g.stats.played) + SeatCount * HandSize
    ensures Sum(r.stats.won) == Sum(g.stats.won) + HandSize
    ensures r.trump == d.trump && r.dealer == d.dealer
  {
    var dealt := Deal(g, d);
    DealStartsRound(g, d);
    r := PlayRound(dealt);
  }

  /** The simulation loop over a list of draws: each deal adds twenty played and
      five won, and no token is ever counted as won more often than as played. */
  method Simulate(g: Game, draws: seq<DealInput>) returns (r: Game)
    requires Shaped(g) && g.unknown == FullDeck() && WonWithinPlayed(g.stats, [])
    requires forall i :: 0 <= i < |draws| ==> ValidDraw(draws[i])
    ensures Shaped(r) && r.unknown == FullDeck() && WonWithinPlayed(r.stats, [])
    ensures Sum(r.stats.played) == Sum(g.stats.played) + SeatCount * HandSize * |draws|
    ensures Sum(r.stats.won) == Sum(g.stats.won) + HandSize * |draws|
  {
    r := g;
    var i := 0;
    while i < |draws|
      invariant 0 <= i <= |draws|
      invariant Shaped(r) && r.unknown == FullDeck() && WonWithinPlayed(r.stats, [])
      invariant Sum(r.stats.played) == Sum(g.stats.played) + SeatCount * HandSize * i
      invariant Sum(r.stats.won) == Sum(g.stats.won) + HandSize * i
    {
      r := SimulateDeal(r, draws[i]);
      i := i + 1;
    }
  }

  /** From the initial state, after any number of deals, won never exceeds played
      for any token, so every win ratio `won / played` with a non-zero played count
      lies in [0, 1] (a token never played gives `0 / 0`). */
  method SimulateFromStart(draws: seq<DealInput>) returns (r: Game)
    requires forall i :: 0 <= i < |draws| ==> ValidDraw(draws[i])
    ensures Sum(r.stats.played) == SeatCount * HandSize * |draws|
    ensures Sum(r.stats.won) == HandSize * |draws|
    ensures |r.stats.played| == |r.stats.won| == TokenCount
    ensures forall v :: 0 <= v < TokenCount ==> r.stats.won[v] <= r.stats.played[v]
  {
    r := Simulate(InitialGame(), draws);
    forall v | 0 <= v < TokenCount
      ensures r.stats.won[v] <= r.stats.played[v]
    {
      assert CountValue([], v) == 0;
    }
  }
}

=== FILE: seqs.dfy ===
/** Sequence helpers standing in for the array methods the engine uses:
    `filter`, `findIndex` and `splice`. */
module Seqs {

  /** The elements of `xs` that satisfy `p`, in their original order. */
  function Filter<T(!new)>(xs: seq<T>, p: T -> bool): (r: seq<T>)
    ensures |r| <= |xs|
    ensures forall x :: x in r <==> x in xs && p(x)
    ensures forall i :: 0 <= i < |r| ==> p(r[i])
  {
    if |xs| == 0 then []
    else if p(xs[0]) then [xs[0]] + Filter(xs[1..], p)
    else Filter(xs[1..], p)
  }

  /** Two tests that agree on every element select the same elements in the same order. */
  lemma {:induction false} FilterAgree<T(!new)>(xs: seq<T>, p: T -> bool, q: T -> bool)
    requires forall i :: 0 <= i < |xs| ==> p(xs[i]) == q(xs[i])
    ensures Filter(xs, p) == Filter(xs, q)
  {
    if |xs| > 0 {
      FilterAgree(xs[1..], p, q);
    }
  }

  /** A filter is non-empty exactly when some element passes the test. */
  lemma FilterNonEmpty<T(!new)>(xs: seq<T>, p: T -> bool)
    ensures |Filter(xs, p)| > 0 <==> exists j :: 0 <= j < |xs| && p(xs[j])
  {
    if exists j :: 0 <= j < |xs| && p(xs[j]) {
      var j :| 0 <= j < |xs| && p(xs[j]);
      assert xs[j] in Filter(xs, p);
    }
  }

  /** An element of a suffix `xs[k + 1..]` sits at some position after `k`. */
  lemma InSuffix<T>(xs: seq<T>, k: nat, x: T)
    requires k < |xs| && x in xs[k + 1..]
    ensures exists m :: k < m < |xs| && xs[m] == x
  {
    var m :| 0 <= m < |xs[k + 1..]| && xs[k + 1..][m] == x;
    assert xs[k + 1 + m] == x;
  }

  /** A filter keeps the order of the list: the `k`-th selected element sits at
      some position `i`, and every later element that passes the test is selected
      after position `k`. */
  lemma {:induction false} FilterOrder<T(!new)>(xs: seq<T>, p: T -> bool, k: nat)
    requires k < |Filter(xs, p)|
    ensures exists i :: 0 <= i < |xs| && xs[i] == Filter(xs, p)[k]
              && forall j :: i < j < |xs| && p(xs[j]) ==> xs[j] in Filter(xs, p)[k + 1..]
  {
    var f := Filter(xs, p);
    var rest := Filter(xs[1..], p);
    assert f == if p(xs[0]) then [xs[0]] + rest else rest;
    hide Filter;
    if p(xs[0]) && k == 0 {
      assert f[1..] == rest;
      forall j | 0 < j < |xs| && p(xs[j])
        ensures xs[j] in f[1..]
      {
        assert xs[j] == xs[1..][j - 1];
      }
    } else {
      var k' := if p(xs[0]) then k - 1 else k;
      assert f[k..] == rest[k'..];
      FilterOrder(xs[1..], p, k');
      var i' :| 0 <= i' < |xs| - 1 && xs[1..][i'] == rest[k']
                && forall j :: i' < j < |xs| - 1 && p(xs[1..][j]) ==> xs[1..][j] in rest[k' + 1..];
      assert f[k + 1..] == rest[k' + 1..];
      forall j | i' + 1 < j < |xs| && p(xs[j])
        ensures xs[j] in f[k + 1..]
      {
        assert xs[j] == xs[1..][j - 1];
      }
      assert xs[i' + 1] == f[k];
    }
  }

  /** Index of the first occurrence of `x`, or -1: `Array.prototype.findIndex`. */
  function FindIndex<T(==)>(xs: seq<T>, x: T): (i: int)
    ensures -1 <= i < |xs|
    ensures i == -1 <==> x !in xs
    ensures 0 <= i ==> xs[i] == x && x !in xs[..i]
  {
    if |xs| == 0 then -1
    else if xs[0] == x then 0
    else if FindIndex(xs[1..], x) == -1 then -1
    else FindIndex(xs[1..], x) + 1
  }

  /** `xs.splice(xs.findIndex(== x), 1)`: removes the first `x`; when there is
      none the index is -1 and `splice` removes the last element instead. */
  function SpliceOut<T(==)>(xs: seq<T>, x: T): seq<T>
  {
    var i := FindIndex(xs, x);
    if i >= 0 then xs[..i] + xs[i + 1..]
    else if |xs| > 0 then xs[..|xs| - 1]
    else xs
  }

  /** `splice` removes exactly one copy of a present element, and the last element
      when the element is missing. */
  lemma SpliceOutRemovesOne<T>(xs: seq<T>, x: T)
    ensures x in xs ==> multiset(SpliceOut(xs, x)) == multiset(xs) - multiset{x}
    ensures x !in xs && |xs| > 0 ==> SpliceOut(xs, x) == xs[..|xs| - 1]
  {
    var i := FindIndex(xs, x);
    if i >= 0 {
      assert xs == xs[..i] + [xs[i]] + xs[i + 1..];
    }
  }

  /** `[hand.slice(0, i), hand.slice(i + 1)].flat()` with `i` the first index of
      `x`; with `i == -1` this is `hand.slice(0, -1)` followed by the whole hand. */
  function Without<T(==)>(xs: seq<T>, x: T): seq<T>
  {
    var i := FindIndex(xs, x);
    if i >= 0 then xs[..i] + xs[i + 1..]
    else (if |xs| > 0 then xs[..|xs| - 1] else []) + xs
  }

  /** Taking a present card out of a hand removes exactly one copy of it; a missing
      card would instead leave the hand nearly doubled. */
  lemma WithoutRemovesOne<T>(xs: seq<T>, x: T)
    ensures x in xs ==> multiset(Without(xs, x)) == multiset(xs) - multiset{x} && |Without(xs, x)| == |xs| - 1
    ensures x in xs ==> exists i :: 0 <= i < |xs| && xs[i] == x && x !in xs[..i]
                          && Without(xs, x) == xs[..i] + xs[i + 1..]
    ensures x !in xs ==> |Without(xs, x)| == 2 * |xs| - (if |xs| > 0 then 1 else 0)
  {
    var i := FindIndex(xs, x);
    if i >= 0 {
      assert xs == xs[..i] + [xs[i]] + xs[i + 1..];
    }
  }

  /** Filtering a concatenation filters each part. */
  lemma {:induction false} FilterConcat<T(!new)>(a: seq<T>, b: seq<T>, p: T -> bool)
    ensures Filter(a + b, p) == Filter(a, p) + Filter(b, p)
  {
    if |a| == 0 {
      assert a + b == b;
    } else {
      assert (a + b)[0] == a[0];
      assert (a + b)[1..] == a[1..] + b;
      FilterConcat(a[1..], b, p);
    }
  }

  /** A filter that every element passes keeps the whole list. */
  lemma {:induction false} FilterKeepsAll<T(!new)>(xs: seq<T>, p: T -> bool)
    requires forall i :: 0 <= i < |xs| ==> p(xs[i])
    ensures Filter(xs, p) == xs
  {
    if |xs| > 0 {
      FilterKeepsAll(xs[1..], p);
    }
  }

  /** Filtering out one rejected element between two runs of kept ones leaves the
      two runs, joined. */
  lemma FilterDropsOne<T(!new)>(before: seq<T>, x: T, after: seq<T>, p: T -> bool)
    requires forall k :: 0 <= k < |before| ==> p(before[k])
    requires !p(x)
    requires forall k :: 0 <= k < |after| ==> p(after[k])
    ensures Filter(before + [x] + after, p) == before + after
  {
    assert before + [x] + after == before + ([x] + after);
    FilterConcat(before, [x] + after, p);
    FilterConcat([x], after, p);
    assert Filter([x], p) == [];
    FilterKeepsAll(before, p);
    FilterKeepsAll(after, p);
  }

  /** In a list without repeats no element occurs again after its position. */
  lemma LaterCopiesAbsent<T>(xs: seq<T>, i: nat)
    requires Distinct(xs) && i < |xs|
    ensures xs[i] !in xs[i + 1..]
  {
    var x := xs[i];
    assert multiset(xs)[x] == 1;
    assert xs == xs[..i + 1] + xs[i + 1..];
    assert multiset(xs) == multiset(xs[..i + 1]) + multiset(xs[i + 1..]);
    assert x in xs[..i + 1];
  }

  /** In a list without repeats, taking out a held element leaves the others in
      their order: exactly the elements different from it. */
  lemma WithoutKeepsOrder<T(!new)>(xs: seq<T>, x: T)
    requires Distinct(xs) && x in xs
    ensures Without(xs, x) == Filter(xs, y => y != x)
  {
    var p := (y: T) => y != x;
    var i := FindIndex(xs, x);
    var before, after := xs[..i], xs[i + 1..];
    assert Without(xs, x) == before + after;
    assert xs == before + [x] + after;
    LaterCopiesAbsent(xs, i);
    hide Without, FindIndex, Distinct, Filter;
    FilterDropsOne(before, x, after, p);
  }

  /** The same with the test passed in: any test that keeps exactly the elements
      different from `x`. */
  lemma WithoutInOrder<T(!new)>(xs: seq<T>, x: T, p: T -> bool)
    requires Distinct(xs) && x in xs
    requires forall k :: 0 <= k < |xs| ==> (p(xs[k]) <==> xs[k] != x)
    ensures Without(xs, x) == Filter(xs, p)
  {
    WithoutKeepsOrder(xs, x);
    FilterAgree(xs, y => y != x, p);
  }

  /** Removing one copy of `x` keeps every other element. */
  lemma RemovalKeepsOthers<T>(xs: seq<T>, r: seq<T>, x: T, y: T)
    requires multiset(r) == multiset(xs) - multiset{x}
    requires y != x
    ensures y in r <==> y in xs
  {
    assert y in r <==> y in multiset(r);
    assert y in xs <==> y in multiset(xs);
  }

  /** No element occurs twice. */
  predicate Distinct<T(==)>(xs: seq<T>)
  {
    forall x | x in xs :: multiset(xs)[x] == 1
  }

  /** Elements at different positions differ exactly when no element repeats. */
  lemma DistinctPairs<T>(xs: seq<T>, a: nat, b: nat)
    requires Distinct(xs) && a < b < |xs|
    ensures xs[a] != xs[b]
  {
    if xs[a] == xs[b] {
      TwoCopies(xs, a, b);
    }
  }

  /** Removing one copy of `x` from a sequence without repeats removes `x` entirely
      and leaves a sequence without repeats. */
  lemma RemovalFromDistinct<T>(xs: seq<T>, r: seq<T>, x: T)
    requires multiset(r) == multiset(xs) - multiset{x}
    requires Distinct(xs)
    ensures x !in r
    ensures Distinct(r)
  {
    assert x in xs ==> multiset(xs)[x] == 1;
    assert multiset(r)[x] == 0;
    forall y | y in r
      ensures multiset(r)[y] == 1
    {
      assert y in multiset(r);
    }
  }

  /** A sequence whose positions hold pairwise different elements has no repeats. */
  lemma {:induction false} DistinctFromPairs<T>(xs: seq<T>)
    requires forall a, b :: 0 <= a < b < |xs| ==> xs[a] != xs[b]
    ensures Distinct(xs)
  {
    if |xs| > 0 {
      DistinctFromPairs(xs[1..]);
      assert xs == [xs[0]] + xs[1..];
      assert xs[0] !in xs[1..];
    }
  }

  /** Two equal elements at different positions make two copies. */
  lemma TwoCopies<T>(xs: seq<T>, a: nat, b: nat)
    requires a < b < |xs| && xs[a] == xs[b]
    ensures multiset(xs)[xs[a]] >= 2
  {
    assert xs == xs[..b] + xs[b..];
    assert xs[a] in xs[..b];
    assert xs[b] in xs[b..];
    assert multiset(xs) == multiset(xs[..b]) + multiset(xs[b..]);
  }
}

=== FILE: state.dfy ===
/** The game state threaded through play, trick and round, the seat arithmetic
    modulo 4 and the per-token statistics counters. */
module GameState {
  import opened Cards
  import opened Resolution

  /** The cards played so far in the current trick, with their tokens, and the lead
      suit (`None` until the first card is down). */
  datatype Trick = Trick(cards: seq<Valued>, leadSuit: Option<Suit>)

  /** `playedCount` and `wonCount` per token, indexed by the token's table value. */
  datatype Stats = Stats(played: seq<nat>, won: seq<nat>)

  /** `hands[j]` is the hand of the player in seat `j + 1`; seats 1 and 3 form
      team 0 and seats 2 and 4 team 1. */
  datatype Game = Game(
    hands: seq<seq<Card>>,
    trump: Suit,
    left: Suit,
    dealer: int,
    leadPlayer: int,
    turn: int,
    trick: Trick,
    unknown: seq<Card>,
    stats: Stats)

  const SeatCount: nat := 4
  const HandSize: nat := 5

  /** Four players and one counter pair per token. */
  ghost predicate Shaped(g: Game)
  {
    |g.hands| == SeatCount && |g.stats.played| == TokenCount && |g.stats.won| == TokenCount
  }

  /** The seat `k` places after `lead` in rotation 1 -> 2 -> 3 -> 4 -> 1. */
  function SeatAfter(lead: int, k: nat): (s: int)
    requires 1 <= lead <= SeatCount
    ensures 1 <= s <= SeatCount
    ensures k < SeatCount ==> ((s - lead) % SeatCount == k)
  {
    (lead - 1 + k) % SeatCount + 1
  }

  /** How many places `seat` comes after `lead` in rotation. */
  function Offset(seat: int, lead: int): (o: nat)
    requires 1 <= seat <= SeatCount && 1 <= lead <= SeatCount
    ensures o < SeatCount
    ensures SeatAfter(lead, o) == seat
  {
    (seat - lead) % SeatCount
  }

  /** The remainder of JavaScript's `%`, which truncates toward zero. */
  function JsRem(a: int, n: int): (r: int)
    requires n > 0
    ensures a >= 0 ==> r == a % n
    ensures -n < r < n
  {
    if a >= 0 then a % n else -((-a) % n)
  }

  /** The seat that played card `index` of a trick led from `leadPlayer`, as
      `((leadPlayer + index - 1) % 4) + 1` computes it. */
  function SeatOfIndex(leadPlayer: int, index: int): (s: int)
    ensures 1 <= leadPlayer <= SeatCount && 0 <= index ==> s == SeatAfter(leadPlayer, index)
  {
    JsRem(leadPlayer + index - 1, SeatCount) + 1
  }

  /** Advancing the turn one seat at a time from the leader reaches the seat that
      the index arithmetic assigns to each trick position. */
  lemma {:induction false} SeatOfIndexAgrees(lead: int, k: nat)
    requires 1 <= lead <= SeatCount
    ensures SeatOfIndex(lead, k) == SeatAfter(lead, k)
    ensures SeatAfter(lead, k + 1) == SeatAfter(lead, k) % SeatCount + 1
  {
  }

  /** `counts[value(t)] += 1`: the `find(...)!.playedCount++` on the counter of `t`. */
  function Bump(counts: seq<nat>, t: Token): (r: seq<nat>)
    requires |counts| == TokenCount
    ensures |r| == TokenCount
    ensures r[RankValue(t)] == counts[RankValue(t)] + 1
    ensures forall v :: 0 <= v < TokenCount && v != RankValue(t) ==> r[v] == counts[v]
    ensures Sum(r) == Sum(counts) + 1
  {
    RankValueBijective(t, t);
    var r := counts[RankValue(t) := counts[RankValue(t)] + 1];
    SumUpdate(counts, RankValue(t), counts[RankValue(t)] + 1);
    r
  }

  function Sum(xs: seq<nat>): nat
  {
    if |xs| == 0 then 0 else xs[0] + Sum(xs[1..])
  }

  /** Replacing one entry changes the sum by the difference. */
  lemma {:induction false} SumUpdate(xs: seq<nat>, i: nat, v: nat)
    requires i < |xs|
    ensures Sum(xs[i := v]) == Sum(xs) - xs[i] + v
  {
    if i > 0 {
      SumUpdate(xs[1..], i - 1, v);
      assert xs[i := v][1..] == xs[1..][i - 1 := v];
    }
  }

  /** How many entries of `xs` have table value `v`. */
  function CountValue(xs: seq<Valued>, v: nat): nat
  {
    if |xs| == 0 then 0
    else CountValue(xs[..|xs| - 1], v) + (if Value(xs[|xs| - 1]) == v then 1 else 0)
  }

  /** An entry present in the list is counted. */
  lemma {:induction false} CountValueMember(xs: seq<Valued>, i: nat)
    requires i < |xs|
    ensures CountValue(xs, Value(xs[i])) >= 1
  {
    if i < |xs| - 1 {
      CountValueMember(xs[..|xs| - 1], i);
    }
  }

  /** Each card of the trick has been counted as played more often than its token
      has been counted as won, with the tokens still on the table outstanding. */
  ghost predicate WonWithinPlayed(s: Stats, table: seq<Valued>)
  {
    && |s.played| == TokenCount && |s.won| == TokenCount
    && forall v :: 0 <= v < TokenCount ==> s.won[v] + CountValue(table, v) <= s.played[v]
  }
}
